=== FILE: README.md ===
# Falcon IPMI fan driver, modelled in Dafny

The driver keeps one number, the fan duty in percent. It starts at 10 and
broadcasts that duty to fans 2 to 6 over IPMI. Then it loops forever. Each
iteration reads the `ipmitool sensor` report and finds the first
`CPU_Diode_Temp` record. It truncates that record's value to an integer and
compares it with `CPU_THRESHOLD`:

- **Step up.** Above the threshold while the duty is below `MAX_PERCENT`, the
  duty goes up by 5, capped at `MAX_PERCENT`, and the new duty is broadcast.
- **Reset.** Below the threshold while the duty is above 10, the duty drops
  to 10. No command is sent.
- **Hold.** Otherwise nothing changes.

Any exception in an iteration is caught and logged. The duty keeps whatever
value had been assigned before the exception.

The model is split into modules that follow the program:

| module | file | what it holds |
|---|---|---|
| `Results` | `results.dfy` | The error kinds the driver can raise, and the `Result` and `Option` types used to carry them. |
| `PyStr` | `pystr.dfy` | The Python string operations the parser uses: `isspace`, `strip`, `split` and `join` on the field delimiter, and `splitlines`. Strings are sequences of Unicode scalar values. |
| `Decimal` | `decimal.dfy` | `int(float(value))` on decimal literals, and `str(n)` for integers, which it inverts. |
| `SensorReport` | `sensor.dfy` | `get_sensor_events`: a report becomes ten-field records, and any bad line is an error. The file also holds the `next(...)` lookup of the first record with a given name. |
| `Ipmi` | `ipmi.dfy` | `ipmi_sensor`, `ipmi_set_falcon_fan_percent` and `set_falcon_fan_percent`: credential resolution, argument checks, the commands put on the wire, and the abort at the first failed fan. |
| `FanDriver` | `fandriver.dfy` | The policy, one loop iteration, start-up, finite runs of iterations, and the properties of those runs. |
| `Scenarios` | `scenarios.dfy` | Worked examples: a hot reading, a cold reading, a missing sensor, a nine-field line, and a broadcast refused at fan 4. |

The BMC on the other side of `ipmitool` is an oracle. A `Channel` value gives
one iteration's answers:

- the text of the sensor report, or `None` when that command fails;
- one acknowledgement per fan command, in the order they are sent. A command
  with no acknowledgement on record counts as failed.

Each operation returns the commands it put on the wire together with its
outcome. This lets the properties speak about what was sent, in what order,
and what was never sent.

Some behaviours of the code that are easy to miss:

- **A reset sends nothing.** The duty variable returns to 10, but every fan
  keeps the duty it was last commanded. `FanDriver.ResetLeavesFans` proves
  this, and `FanDriver.HotAfterReset` proves a consequence: the next hot
  reading commands `min(15, MAX_PERCENT)`, which is below the driver's duty
  before the reset, while the fans may still be running at that higher duty.
- **The duty bound.** The duty stays within `[10, MAX_PERCENT]` only when
  `MAX_PERCENT >= 10`. With a smaller `MAX_PERCENT` it never steps up and
  stays at 10, above the ceiling. The invariant the model proves is therefore
  `10 <= duty <= max(10, MAX_PERCENT)`.
- **Blank lines and empty fields.** A blank line in the report, a trailing
  one included, is rejected, because it splits into one piece, not ten. Empty
  fields are accepted. The code does not skip empty lines and does not check
  fields for emptiness.
- **A duty of 100 is refused.** The duty check is `range(0, 100)`. With
  `MAX_PERCENT >= 100`, a step up to 100 or more is still stored as the duty,
  but the first fan command is refused. No fan is set, and the iteration ends
  in the error.
- **A failed broadcast still raises the duty.** When a broadcast fails part
  way, the raised duty is kept anyway. The fans before the failure have the
  new duty, the failing fan was tried, and the fans after it were not
  contacted.

## Model

| member | source | states |
|---|---|---|
| PyStr.Split | falcon_ipmi_fan_driver.py:167 | splitting at the field delimiter yields one piece more than there are delimiters, and no piece contains a delimiter |
| PyStr.SplitJoin | falcon_ipmi_fan_driver.py:167 | splitting a join of delimiter-free parts gives back exactly those parts |
| PyStr.JoinSplit | falcon_ipmi_fan_driver.py:167 | joining the pieces of a split with the delimiter gives back the original line |
| PyStr.Strip | falcon_ipmi_fan_driver.py:163 | `strip()` never lengthens a string, and its result neither starts nor ends with whitespace. `PyStr.StripShape` states the rest: the result is what lies between a whitespace prefix and a whitespace suffix |
| PyStr.StripShape | falcon_ipmi_fan_driver.py:163 | `strip()` removes a whitespace prefix and a whitespace suffix and nothing else, and its result neither starts nor ends with whitespace |
| PyStr.StripPadded | falcon_ipmi_fan_driver.py:169-178 | stripping whitespace + text + whitespace, where the text has no whitespace at its ends, gives exactly that text |
| PyStr.StripIdempotent | falcon_ipmi_fan_driver.py:163 | stripping twice is stripping once |
| PyStr.StripKeepsCount | falcon_ipmi_fan_driver.py:163-167 | stripping a line never removes a delimiter, so the line splits into as many fields after the strip as before it |
| PyStr.SplitLines | falcon_ipmi_fan_driver.py:162 | no line returned by `splitlines()` contains a line-break character |
| PyStr.SplitLinesCover | falcon_ipmi_fan_driver.py:162 | the lines of `splitlines()` cover the whole text: the text is each line followed by its terminator, which is one line-break character or "\r\n". Only the last line may lack one, and then it is not empty, and a lone "\r" is never followed by "\n". So an unterminated last line is kept |
| PyStr.SplitLinesJoinLines | falcon_ipmi_fan_driver.py:162 | text whose lines each end in "\n" splits back into exactly those lines, with no extra empty last line |
| Decimal.TruncateDecimal | falcon_ipmi_fan_driver.py:43 | a failed conversion is the value error for that text. Which texts fail is stated by `Decimal.ReadLiteral` and `Decimal.LiteralOfRead` |
| Decimal.ReadLiteral | falcon_ipmi_fan_driver.py:43 | every decimal literal, with `isspace()` whitespace around it, converts to its whole part with its sign: an optional "+" or "-", digits, and optionally a point and more digits, at least one digit in all |
| Decimal.LiteralOfRead | falcon_ipmi_fan_driver.py:43 | conversely, every text that converts is such a literal with `isspace()` whitespace around it, and the result is that literal's whole part with its sign, so every other text fails |
| Decimal.TruncateShown | falcon_ipmi_fan_driver.py:43 | in the model, converting `str(n)` gives n, and so does converting `str(n) + "." + digits`: the fraction is truncated toward zero, for negative n too. Python's `float()` agrees only while the literal has at most about 15 significant digits. A longer literal is rounded first, and the rounding can cross an integer: "69.99999999999999999" becomes 70.0 in Python, while the model gives 69 |
| Decimal.NoDigitRejected | falcon_ipmi_fan_driver.py:43 | a value with no digit at all, such as "na", is rejected |
| SensorReport.ParseLine | falcon_ipmi_fan_driver.py:163-179 | a line parses exactly when it holds nine delimiters. Otherwise the error names the number of pieces found. A parsed record has every field stripped and free of delimiters |
| SensorReport.FirstBadLine | falcon_ipmi_fan_driver.py:162-167 | the index of the first line that fails to unpack: every earlier line parses, and the line at that index does not |
| SensorReport.ParseLines | falcon_ipmi_fan_driver.py:162-180 | the lines parse exactly when no line is bad. The records then correspond one to one, in order, with the lines. Otherwise the error is the one raised by the first bad line |
| SensorReport.ParseReport | falcon_ipmi_fan_driver.py:159-180 | every record parsed from a report is well formed |
| SensorReport.ParseLayout | falcon_ipmi_fan_driver.py:163-179 | whitespace around any field of a line, or around the line itself, does not change the record the line parses to |
| SensorReport.ParsedLayout | falcon_ipmi_fan_driver.py:163-179 | conversely, every line that parses is its record's fields joined by the delimiter, with some whitespace around each field |
| SensorReport.ParseRender | falcon_ipmi_fan_driver.py:163-179 | printing a well-formed record as a line and parsing that line gives the record back |
| SensorReport.BlankLineRejected | falcon_ipmi_fan_driver.py:163-167 | a blank or whitespace-only line fails to unpack, as a single piece |
| SensorReport.BlankLineFailsReport | falcon_ipmi_fan_driver.py:162-167 | a report containing a blank line is rejected as a whole |
| SensorReport.ParseRenderReport | falcon_ipmi_fan_driver.py:159-180 | printing printable records one per line and parsing the report gives back the same records, in the same order |
| SensorReport.FindFirst | falcon_ipmi_fan_driver.py:42 | returns the index of a record with the name, and no earlier record has that name. `None` exactly when no record has it |
| SensorReport.Lookup | falcon_ipmi_fan_driver.py:42 | returns the first record with the name. When there is none, the result is the not-found error, and no record has that name |
| Ipmi.Resolve | falcon_ipmi_fan_driver.py:113-122 | each credential is the explicit value if truthy, else the default. The host is checked first, then the user name, then the password, and the first one that is missing is the error, in each direction. The result is a login exactly when all three are available, and it then carries the chosen values |
| Ipmi.FanCommand | falcon_ipmi_fan_driver.py:113-126 | checks run in order: credentials, then fan in `range(2, 7)`, then duty in `range(0, 100)`. The result is a command exactly when all three pass, and then it carries the resolved login, the fan and the duty |
| Ipmi.SetFanPercent | falcon_ipmi_fan_driver.py:113-137 | a failed check sends nothing and returns that error. Otherwise exactly the one command is sent, and the call succeeds only when the BMC acknowledges it |
| Ipmi.BroadcastFrom | falcon_ipmi_fan_driver.py:148-156 | the i-th command sent is the checked command for fan `fan + i`, and no more commands are sent than there are fans left |
| Ipmi.BroadcastFromStops | falcon_ipmi_fan_driver.py:148-156 | once the checks pass, the BMC gets one command per fan up to and including the first refused one, and the call fails exactly when a fan refused |
| Ipmi.Broadcast | falcon_ipmi_fan_driver.py:148-156 | the commands go to fans 2, 3, … in order. A failed check on fan 2 aborts before anything is sent. Otherwise the loop stops right after the first refusal with the channel error, or succeeds after all five fans |
| Ipmi.FetchReport | falcon_ipmi_fan_driver.py:81-101 | a credential error sends nothing. Otherwise one sensor read is sent, and the report text is the BMC's answer, or the channel error when the BMC gives none |
| FanDriver.Decide | falcon_ipmi_fan_driver.py:45-54 | step up exactly when the reading is above the threshold and the duty is below the ceiling. The target is `min(duty + 5, ceiling)`, strictly above the duty. Reset exactly when the reading is below the threshold and the duty is above 10. A reading equal to the threshold never changes anything |
| FanDriver.Temperature | falcon_ipmi_fan_driver.py:41-43 | a report that fails to parse gives that parse error, and a report without `CPU_Diode_Temp` gives the not-found error |
| FanDriver.Observe | falcon_ipmi_fan_driver.py:41-43 | no sensor report means no reading. A reading succeeds only when the credentials resolved and the BMC returned a report, and it is then the temperature of that report |
| FanDriver.ObservedReading | falcon_ipmi_fan_driver.py:41-43 | conversely to `FanDriver.ObserveRendered`, a successful read means the credentials resolved and the BMC returned a report in which every line parsed. Line i is the first whose record is named `CPU_Diode_Temp`, and that record's value is a decimal literal whose signed whole part is the temperature |
| FanDriver.Respond | falcon_ipmi_fan_driver.py:45-62 | a failed reading keeps the duty, sends nothing, and ends in that error. A step up sets the duty to its target, sends exactly the broadcast's commands, and ends as the broadcast ends, so a failed broadcast still leaves the raised duty. A reset sets 10 and a hold keeps the duty, and neither sends anything. The bound `10 <= duty <= max(10, MAX_PERCENT)` is preserved |
| FanDriver.Iterate | falcon_ipmi_fan_driver.py:39-62 | an error reading the temperature leaves the duty unchanged, ends in that error, and sends only what the fetch sent. With credentials available, the sensor read is always the first command. The bound `10 <= duty <= max(10, MAX_PERCENT)` is preserved |
| FanDriver.Start | falcon_ipmi_fan_driver.py:35-37 | start-up sets duty 10. Missing credentials send nothing and give that error. When every fan acknowledges, exactly five commands go out, setting fans 2 to 6 to 10 in order |
| FanDriver.Run | falcon_ipmi_fan_driver.py:38-62 | a run of the loop that starts within `10 <= duty <= max(10, MAX_PERCENT)` stays within it, over any finite sequence of loop iterations. `FanDriver.RunDuty` relates the run to what each iteration observed |
| FanDriver.RunDuty | falcon_ipmi_fan_driver.py:38-62 | the duty after a run of the loop depends on the channels only through what each iteration observed: the reading, and the BMC's answers to the fan commands |
| FanDriver.DutyInRange | falcon_ipmi_fan_driver.py:38-62 | over any sequence of observations, the duty stays within `10 <= duty <= max(10, MAX_PERCENT)` |
| FanDriver.HotRun | falcon_ipmi_fan_driver.py:45-50 | after n hot readings, the duty is `min(start + 5n, ceiling)`, whether or not the broadcasts succeeded. A start at or above the ceiling stays where it is |
| FanDriver.HotRunSaturates | falcon_ipmi_fan_driver.py:45-47 | enough hot readings to cover the distance to the ceiling bring the duty exactly to the ceiling |
| FanDriver.HotRunMonotone | falcon_ipmi_fan_driver.py:45-47 | across hot readings, the duty never decreases |
| FanDriver.ColdRun | falcon_ipmi_fan_driver.py:51-54 | over cold readings, a duty above 10 drops to 10 at the first reading and stays there. A duty of 10 or less does not change |
| FanDriver.BroadcastLeaves | falcon_ipmi_fan_driver.py:148-156 | once a broadcast gets through, each of fans 2 to 6 was last commanded the broadcast duty. Every other fan number keeps what it had |
| FanDriver.LastDutyAfter | falcon_ipmi_fan_driver.py:148-156 | a fan's last commanded duty after two batches of commands is the second batch's verdict, starting from the first batch's |
| FanDriver.ResetLeavesFans | falcon_ipmi_fan_driver.py:51-54 | a reset sets the driver's duty to 10, but every fan's last commanded duty is unchanged, whatever was sent before |
| FanDriver.HotAfterReset | falcon_ipmi_fan_driver.py:45-54 | after a reset from a duty more than one step above 10, the fans still run at what they were last given. The next hot reading then commands every fan to `min(15, ceiling)`, which is below the duty before the reset |
| FanDriver.StepPastPercentLimit | falcon_ipmi_fan_driver.py:45-49 | a step up to 100 or more is stored as the duty. The iteration then ends with the duty-range error, and no fan command is sent |
| FanDriver.ObserveRendered | falcon_ipmi_fan_driver.py:41-43 | a report printed from records whose first `CPU_Diode_Temp` value is `str(t)`, with or without a fraction, reads as temperature t |
| Scenarios.HotReadingStepsUp | falcon_ipmi_fan_driver.py:41-49 | a reading of "70.000" with the default settings reads as 70, and from duty 10 it steps the duty up to 15 |
| Scenarios.ColdReadingResets | falcon_ipmi_fan_driver.py:41-54 | a reading of "60" from duty 35 resets the duty to 10 and succeeds, having sent only the sensor read |
| Scenarios.ResetIteration | falcon_ipmi_fan_driver.py:51-54 | a cold iteration from a duty above 10 sends only the sensor read, succeeds, and leaves the duty at 10 |
| Scenarios.MissingSensorKeepsDuty | falcon_ipmi_fan_driver.py:42-62 | a report without `CPU_Diode_Temp` ends the iteration with the not-found error and keeps the duty |
| Scenarios.NineFieldsKeepsDuty | falcon_ipmi_fan_driver.py:164-167 | a line with nine fields fails to unpack (nine pieces found), so the iteration fails and the duty stays |
| Scenarios.ThirdRefused | falcon_ipmi_fan_driver.py:148-156 | when the BMC refuses the third command, fans 2, 3 and 4 are commanded, in that order, and the broadcast ends in the channel error |
| Scenarios.RefusedByFanFour | falcon_ipmi_fan_driver.py:45-50 | a hot reading whose broadcast is refused at fan 4 commands fans 2, 3 and 4 only, in that order, and ends in the channel error. The driver keeps the raised duty anyway |

## Left out

- Running `ipmitool`. The subprocess, its environment copy, its timeouts, and the UTF-8 decoding of its output (lines 92-101, 128-137) are replaced by the `Channel` oracle. The report is already text, and each fan command's outcome is a boolean.
- Configuration loading (lines 9-19). `load_dotenv` and `os.getenv` are not modelled. `MAX_PERCENT`, `CPU_THRESHOLD` and the `IPMI_*` defaults are fields of `Config`. Converting those environment strings with `int()` is not modelled.
- The poll interval. The model assumes `INTERVAL_SECONDS >= 0`, so that `time.sleep` (lines 13, 40) only pauses the loop, and no clock appears in the model. A negative interval makes `time.sleep` raise `ValueError` inside the `try` on every iteration, before the report is read. Every iteration then fails, and the duty stays at 10 for good.
- The infinite loop itself (line 38). `FanDriver.Run` applies one iteration per element of a finite sequence of channels.
- Logging and message texts (lines 23-33, 36, 48, 53, 56, 58-62). The `ValueError` texts are collapsed into the constructors of `Results.Error`.
- The keyword arguments `host`, `username`, `password` and `timeout`. The driver never passes them. The first three are modelled as an explicit `Credentials` value, always `Unset` at the call sites. `timeout` has no effect in the model.
- FanDriver.Start: a start-up failure ends the process, because the call is outside the `try` block. The model returns that error as a value and does not model the termination.
- Decimal.TruncateDecimal: accepts only an optional sign, then digits with at most one '.', at least one digit in all, with surrounding whitespace ignored. Python's `float()` also accepts exponents, `inf`, `nan` and digit-grouping underscores. It also accepts digits of other scripts, such as Arabic-Indic "٣", which the model rejects. It rounds literals with more than about 15 significant digits to the nearest float. That can change a large whole part, and it can carry a long fraction up to the next integer: `int(float("69.99999999999999999"))` is 70, where the model reads 69. `int()` then raises on an infinite value. Conversely, `float()` does not strip the separators U+001C to U+001F, which the model strips with the rest of `isspace()` whitespace. The value is already stripped at line 170, so these never reach `float()` in the driver. The model reports all of these as a value error, or reads the exact digits.
- The dictionary built for each event (lines 168-179) is a ten-field datatype, with the fields in the same order.
- The `__main__` guard (lines 183-184).

=== FILE: decimal.dfy ===
/** `int(float(text))` on the decimal literals a sensor report prints,
    together with the decimal rendering of integers it inverts.
 */
module Decimal {
  import opened Results
  import opened PyStr

  predicate IsDigit(c: char) {
    '0' <= c <= '9'
  }

  predicate AllDigits(s: string) {
    forall i :: 0 <= i < |s| ==> IsDigit(s[i])
  }

  /** The value of a decimal digit; other characters count as 0. */
  function DigitValue(c: char): nat {
    if IsDigit(c) then (c as int) - ('0' as int) else 0
  }

  function DigitChar(d: nat): (c: char)
    requires d < 10
    ensures IsDigit(c) && DigitValue(c) == d
  {
    ('0' as int + d) as char
  }

  /** The number a string of decimal digits spells, most significant
      digit first; the empty string spells 0. */
  function DigitsValue(s: string): nat {
    if |s| == 0 then 0 else DigitsValue(s[..|s| - 1]) * 10 + DigitValue(s[|s| - 1])
  }

  /** `str(n)` for a natural number. */
  function ShowNat(n: nat): (s: string)
    ensures |s| >= 1 && AllDigits(s)
  {
    if n < 10 then [DigitChar(n)] else ShowNat(n / 10) + [DigitChar(n % 10)]
  }

  /** `str(n)` for an integer. */
  function ShowInt(n: int): string {
    if n < 0 then "-" + ShowNat(-n) else ShowNat(n)
  }

  /** Index of the first '.' in `s`, or `|s|` when there is none. */
  function DotIndex(s: string): (i: nat)
    ensures i <= |s|
    ensures forall k :: 0 <= k < i ==> s[k] != '.'
    ensures i < |s| ==> s[i] == '.'
  {
    if |s| == 0 || s[0] == '.' then 0 else 1 + DotIndex(s[1..])
  }

  /** The integer part of an unsigned decimal literal: digits with at
      most one '.', at least one digit in all. */
  function UnsignedPart(body: string): Option<nat> {
    var dot := DotIndex(body);
    var whole := body[..dot];
    var fraction := if dot < |body| then body[dot + 1..] else "";
    if AllDigits(whole) && AllDigits(fraction) && |whole| + |fraction| > 0 then
      Some(DigitsValue(whole))
    else
      None
  }

  /** The value a decimal literal with no surrounding whitespace
      spells: an optional sign, then the unsigned part. */
  function ReadSigned(t: string): Option<int> {
    var signed := |t| > 0 && (t[0] == '-' || t[0] == '+');
    match UnsignedPart(if signed then t[1..] else t)
    case None => None
    case Some(m) => Some(if signed && t[0] == '-' then -(m as int) else m)
  }

  /** `int(float(text))` for a text that spells a decimal literal: an
      optional sign, then digits with at most one '.', at least one
      digit in all. Surrounding whitespace, in the sense of `str.isspace()`,
      is ignored. `float()` ignores the same characters except U+001C to
      U+001F, which the driver has already stripped from the value before
      it gets here. The digits after the point are dropped, which is the
      truncation toward zero `int()` applies to a float. Any other text
      is the `ValueError` `float()` raises. */
  function TruncateDecimal(text: string): (r: Result<int>)
    ensures r.Err? ==> r.error == BadValue(text)
  {
    match ReadSigned(Strip(text))
    case None => Err(BadValue(text))
    case Some(v) => Ok(v)
  }

  /** Reading back the decimal spelling of `n` gives `n`. */
  lemma {:induction false} ShowNatValue(n: nat)
    ensures DigitsValue(ShowNat(n)) == n
  {
    if n >= 10 {
      var s := ShowNat(n);
      ShowNatValue(n / 10);
      assert s[..|s| - 1] == ShowNat(n / 10);
      assert DigitValue(s[|s| - 1]) == n % 10;
    }
  }

  lemma NoDotInDigits(s: string)
    requires AllDigits(s)
    ensures DotIndex(s) == |s|
  {
    if DotIndex(s) < |s| {
      assert !IsDigit(s[DotIndex(s)]);
    }
  }

  lemma DotAfterDigits(d: string, rest: string)
    requires AllDigits(d)
    ensures DotIndex(d + "." + rest) == |d|
  {
    var s := d + "." + rest;
    assert s[|d|] == '.' && s[..|d| + 1][|d|] == '.';
    assert forall k :: 0 <= k < |d| ==> s[k] == d[k] && s[k] != '.';
  }

  lemma UnsignedWhole(digits: string)
    requires |digits| > 0 && AllDigits(digits)
    ensures UnsignedPart(digits) == Some(DigitsValue(digits))
  {
    NoDotInDigits(digits);
    assert digits[..|digits|] == digits;
  }

  lemma UnsignedFraction(digits: string, fraction: string)
    requires |digits| > 0 && AllDigits(digits) && AllDigits(fraction)
    ensures UnsignedPart(digits + "." + fraction) == Some(DigitsValue(digits))
  {
    var body := digits + "." + fraction;
    DotAfterDigits(digits, fraction);
    assert body[..|digits|] == digits;
    assert body[|digits| + 1..] == fraction;
  }

  /** The text a sign contributes to a literal. */
  function SignPrefix(negative: bool): string {
    if negative then "-" else ""
  }

  /** `v` with the given sign. */
  function Signed(negative: bool, v: nat): int {
    if negative then -(v as int) else v
  }

  lemma ReadUnsigned(body: string, v: nat)
    requires |body| > 0 && IsDigit(body[0]) && UnsignedPart(body) == Some(v)
    ensures ReadSigned(body) == Some(v)
  {
  }

  lemma ReadNegative(t: string, body: string, v: nat)
    requires t == ['-'] + body && UnsignedPart(body) == Some(v)
    ensures ReadSigned(t) == Some(-(v as int))
  {
    assert t[1..] == body;
  }

  /** Reading a signed literal whose unsigned part starts with a digit
      and ends with a digit or the point. */
  lemma ReadBody(t: string, negative: bool, body: string, v: nat)
    requires t == SignPrefix(negative) + body
    requires |body| > 0 && IsDigit(body[0]) && (IsDigit(body[|body| - 1]) || body[|body| - 1] == '.')
    requires UnsignedPart(body) == Some(v)
    ensures TruncateDecimal(t) == Ok(Signed(negative, v))
  {
    assert t[|t| - 1] == body[|body| - 1];
    assert t[0] == '-' || t[0] == body[0];
    StrippedFixed(t);
    if negative {
      ReadNegative(t, body, v);
    } else {
      assert t == body;
      ReadUnsigned(body, v);
    }
  }

  lemma FractionEnds(digits: string, fraction: string)
    requires |digits| > 0 && AllDigits(fraction)
    ensures var body := digits + "." + fraction;
      && body[0] == digits[0]
      && (IsDigit(body[|body| - 1]) || body[|body| - 1] == '.')
  {
    var body := digits + "." + fraction;
    if fraction != [] {
      assert body[|body| - 1] == fraction[|fraction| - 1];
    }
  }

  /** `str(n)` is a sign followed by the digits of `|n|`. */
  lemma ShownParts(n: int) returns (digits: string)
    ensures ShowInt(n) == SignPrefix(n < 0) + digits
    ensures |digits| > 0 && AllDigits(digits)
    ensures DigitsValue(digits) == if n < 0 then -n else n
  {
    var m: nat := if n < 0 then -n else n;
    digits := ShowNat(m);
    ShowNatValue(m);
  }

  lemma ReadShownWhole(shown: string, negative: bool, digits: string)
    requires shown == SignPrefix(negative) + digits
    requires |digits| > 0 && AllDigits(digits)
    ensures TruncateDecimal(shown)
         == Ok(Signed(negative, DigitsValue(digits)))
  {
    UnsignedWhole(digits);
    ReadBody(shown, negative, digits, DigitsValue(digits));
  }

  lemma ReadShownFraction(shown: string, negative: bool, digits: string, fraction: string)
    requires shown == SignPrefix(negative) + digits
    requires |digits| > 0 && AllDigits(digits) && AllDigits(fraction)
    ensures TruncateDecimal(shown + "." + fraction)
         == Ok(Signed(negative, DigitsValue(digits)))
  {
    var body := digits + "." + fraction;
    FractionEnds(digits, fraction);
    UnsignedFraction(digits, fraction);
    RegroupFraction(SignPrefix(negative), digits, fraction);
    ReadBody(shown + "." + fraction, negative, body, DigitsValue(digits));
  }

  lemma RegroupFraction(sign: string, digits: string, fraction: string)
    ensures sign + digits + "." + fraction == sign + (digits + "." + fraction)
  {
  }

  /** `int(float(str(n)))` and `int(float(str(n) + "." + fraction))` give
      back `n`: the fraction is truncated away, on either side of zero. */
  lemma TruncateShown(n: int, fraction: string)
    requires AllDigits(fraction)
    ensures TruncateDecimal(ShowInt(n)) == Ok(n)
    ensures TruncateDecimal(ShowInt(n) + "." + fraction) == Ok(n)
  {
    var digits := ShownParts(n);
    ReadShownWhole(ShowInt(n), n < 0, digits);
    ReadShownFraction(ShowInt(n), n < 0, digits, fraction);
  }

  // ---------------------------------------------------------------------
  // Exactly which texts are read

  /** A decimal literal taken apart: its sign ("", "+" or "-"), the
      digits before the point, whether there is a point, and the digits
      after it. */
  datatype Literal = Literal(sign: string, whole: string, dotted: bool, fraction: string)

  /** The literals read as numbers: a sign of at most one character,
      digits on either side of an optional point, and at least one
      digit in all. */
  predicate ValidLiteral(l: Literal) {
    && (l.sign == "" || l.sign == "+" || l.sign == "-")
    && AllDigits(l.whole) && AllDigits(l.fraction)
    && (!l.dotted ==> l.fraction == "")
    && |l.whole| + |l.fraction| > 0
  }

  /** The literal without its sign. */
  function Body(l: Literal): string {
    l.whole + (if l.dotted then "." + l.fraction else "")
  }

  /** The literal as text. */
  function Spell(l: Literal): string {
    l.sign + Body(l)
  }

  /** The integer a literal stands for once its fraction is dropped. */
  function LiteralValue(l: Literal): int {
    Signed(l.sign == "-", DigitsValue(l.whole))
  }

  /** The unsigned part of a valid literal is read as its whole digits. */
  lemma UnsignedBody(l: Literal)
    requires ValidLiteral(l)
    ensures UnsignedPart(Body(l)) == Some(DigitsValue(l.whole))
  {
    var body := Body(l);
    if l.dotted {
      DotAfterDigits(l.whole, l.fraction);
      assert body == l.whole + "." + l.fraction;
      assert body[..|l.whole|] == l.whole;
      assert body[|l.whole| + 1..] == l.fraction;
    } else {
      assert body == l.whole;
      NoDotInDigits(l.whole);
      assert body[..|body|] == l.whole;
    }
  }

  /** A valid literal starts with its sign when it has one, and with a
      digit or the point when it has none. */
  lemma LiteralStart(l: Literal)
    requires ValidLiteral(l)
    ensures |Spell(l)| > 0
    ensures l.sign != "" ==> Spell(l)[0] == l.sign[0] && Spell(l)[1..] == Body(l)
    ensures l.sign == "" ==> Spell(l) == Body(l) && (IsDigit(Body(l)[0]) || Body(l)[0] == '.')
  {
    var body := Body(l);
    if l.whole == [] {
      assert l.dotted && body[0] == '.';
    } else {
      assert body[0] == l.whole[0];
    }
    assert Spell(l) == l.sign + body;
  }

  /** Every valid literal, with any whitespace around it, is read as its
      value: a leading "+", leading zeros, a bare ".5" or "5." included. */
  lemma ReadLiteral(text: string, l: Literal)
    requires ValidLiteral(l) && Strip(text) == Spell(l)
    ensures TruncateDecimal(text) == Ok(LiteralValue(l))
  {
    var t := Spell(l);
    LiteralStart(l);
    UnsignedBody(l);
    if l.sign != "" {
      assert t[0] == '-' || t[0] == '+';
      assert t[0] == '-' <==> l.sign == "-";
    } else {
      assert !(t[0] == '-' || t[0] == '+');
    }
  }

  /** A text with a point is the part before it, the point, and the
      part after it. */
  lemma SplitAtPoint(body: string, dot: nat)
    requires dot < |body| && body[dot] == '.'
    ensures body == body[..dot] + "." + body[dot + 1..]
  {
    assert body[dot..] == "." + body[dot + 1..];
    assert body == body[..dot] + body[dot..];
  }

  /** An unsigned part that is read splits into its whole digits, an
      optional point and its fraction digits. */
  lemma UnsignedParts(body: string) returns (whole: string, dotted: bool, fraction: string)
    requires UnsignedPart(body).Some?
    ensures AllDigits(whole) && AllDigits(fraction) && (!dotted ==> fraction == "")
    ensures |whole| + |fraction| > 0
    ensures body == whole + (if dotted then "." + fraction else "")
    ensures UnsignedPart(body).value == DigitsValue(whole)
  {
    var dot := DotIndex(body);
    whole := body[..dot];
    dotted := dot < |body|;
    fraction := if dotted then body[dot + 1..] else "";
    if dotted {
      SplitAtPoint(body, dot);
    } else {
      assert body == whole;
    }
  }

  /** A signed text that is read splits into a sign of at most one
      character and an unsigned part that is read. */
  lemma SignedParts(t: string) returns (sign: string, body: string)
    requires ReadSigned(t).Some?
    ensures sign == "" || sign == "+" || sign == "-"
    ensures t == sign + body && UnsignedPart(body).Some?
    ensures ReadSigned(t).value == Signed(sign == "-", UnsignedPart(body).value)
  {
    var signed := |t| > 0 && (t[0] == '-' || t[0] == '+');
    sign := if signed then t[..1] else "";
    body := if signed then t[1..] else t;
    assert t == sign + body;
    assert signed ==> (sign == "-" <==> t[0] == '-');
  }

  /** Conversely, every text that is read is a valid literal with
      whitespace around it, and the result is that literal's value. So
      "1a", "7e1", "1.2.3", "--5" and "" are all rejected. */
  lemma LiteralOfRead(text: string, v: int) returns (l: Literal)
    requires TruncateDecimal(text) == Ok(v)
    ensures ValidLiteral(l) && Strip(text) == Spell(l)
    ensures v == LiteralValue(l)
  {
    var sign, body := SignedParts(Strip(text));
    var whole, dotted, fraction := UnsignedParts(body);
    l := Literal(sign, whole, dotted, fraction);
    assert Body(l) == body;
  }

  /** A value with no digit at all, such as the "na" a sensor without a
      reading shows, is rejected. */
  lemma NoDigitRejected(text: string)
    requires forall i :: 0 <= i < |text| ==> !IsDigit(text[i])
    ensures TruncateDecimal(text).Err?
  {
    StripShape(text);
  }
}

=== FILE: fandriver.dfy ===
/** The driver loop: read the CPU temperature from the sensor report,
    then raise the fan duty a step, drop it back to the default, or
    leave it, and broadcast a raised duty to every fan.
 */
module FanDriver {
  import opened Results
  import opened PyStr
  import opened Decimal
  import opened SensorReport
  import opened Ipmi

  /** The duty the driver starts at and falls back to. */
  const DefaultFanPercent: int := 10

  /** How much a hot reading raises the duty. */
  const FanStep: int := 5

  /** The record whose value is the CPU temperature. */
  const TargetSensor: string := "CPU_Diode_Temp"

  /** The settings read at start-up: `MAX_PERCENT`, `CPU_THRESHOLD` and
      the `IPMI_*` credentials every call falls back to. */
  datatype Config = Config(maxPercent: int, threshold: int, credentials: Credentials)

  /** `MAX_PERCENT` and `CPU_THRESHOLD` when the environment does not
      set them. */
  const DefaultMaxPercent: int := 50
  const DefaultThreshold: int := 65

  function Min(a: int, b: int): int {
    if a <= b then a else b
  }

  function Max(a: int, b: int): int {
    if a <= b then b else a
  }

  /** What a temperature reading makes the driver do. */
  datatype Action =
    | StepUp(target: int)  // raise the duty to `target` and broadcast it
    | Reset                // drop the duty to the default, sending nothing
    | Hold                 // leave the duty as it is

  /** The policy: above the threshold while below the ceiling, one step
      up, capped at the ceiling; below the threshold while above the
      default, back to the default; otherwise nothing. A reading equal
      to the threshold never changes anything. */
  function Decide(cfg: Config, active: int, temp: int): (a: Action)
    ensures a.StepUp? <==> temp > cfg.threshold && active < cfg.maxPercent
    ensures a.StepUp? ==> active < a.target <= cfg.maxPercent
    ensures a.StepUp? ==> a.target == Min(active + FanStep, cfg.maxPercent)
    ensures a.Reset? <==> temp < cfg.threshold && active > DefaultFanPercent
    ensures temp == cfg.threshold ==> a == Hold
  {
    if temp > cfg.threshold && active < cfg.maxPercent then
      StepUp(Min(active + FanStep, cfg.maxPercent))
    else if temp < cfg.threshold && active > DefaultFanPercent then
      Reset
    else
      Hold
  }

  /** The answers of the BMC during one iteration: the sensor report
      (`None` when the read fails) and the acknowledgements of the fan
      commands, in the order they are sent. */
  datatype Channel = Channel(report: Option<string>, replies: seq<bool>)

  /** The temperature one report gives: the value of its first
      `CPU_Diode_Temp` record, truncated to an integer. */
  function Temperature(text: string): (r: Result<int>)
    ensures ParseReport(text).Err? ==> r == ParseReport(text).PropagateFailure()
    ensures ParseReport(text).Ok? && Lookup(ParseReport(text).value, TargetSensor).Err?
        ==> r == Err(SensorNotFound(TargetSensor))
  {
    var events :- ParseReport(text);
    var cpu :- Lookup(events, TargetSensor);
    TruncateDecimal(cpu.value)
  }

  /** The read at the top of an iteration: the fetch, then the
      temperature. */
  function Observe(cfg: Config, ch: Channel): (r: Result<int>)
    ensures ch.report.None? ==> r.Err?
    ensures r.Ok? ==> ch.report.Some? && Temperature(ch.report.value) == r
    ensures r.Ok? ==> Resolve(Unset, cfg.credentials).Ok?
  {
    var text :- FetchReport(Unset, cfg.credentials, ch.report).result;
    Temperature(text)
  }

  /** A reported temperature is the truncated value of the first
      `CPU_Diode_Temp` record of a report that parsed, and a report with
      such a record gives exactly that value or its `ValueError`. */
  lemma TemperatureRead(text: string)
    ensures Temperature(text).Ok? ==> ParseReport(text).Ok? && Lookup(ParseReport(text).value, TargetSensor).Ok?
    ensures ParseReport(text).Ok? && Lookup(ParseReport(text).value, TargetSensor).Ok?
        ==> Temperature(text) == TruncateDecimal(Lookup(ParseReport(text).value, TargetSensor).value.value)
  {
  }

  /** A temperature read from a report: every line of the report parsed,
      line `i` is the first record named `CPU_Diode_Temp`, and its value
      is a decimal literal whose whole part is the temperature. */
  lemma ReportedTemperature(text: string, t: int) returns (i: nat, l: Literal)
    requires Temperature(text) == Ok(t)
    ensures var lines := SplitLines(text);
      && (forall k :: 0 <= k < |lines| ==> ParseLine(lines[k]).Ok?)
      && i < |lines| && ParseLine(lines[i]).value.name == TargetSensor
      && (forall j :: 0 <= j < i ==> ParseLine(lines[j]).value.name != TargetSensor)
    ensures ValidLiteral(l) && Strip(ParseLine(SplitLines(text)[i]).value.value) == Spell(l)
    ensures LiteralValue(l) == t
  {
    TemperatureRead(text);
    var lines := SplitLines(text);
    i := FirstNamedLine(lines, TargetSensor);
    l := LiteralOfRead(ParseLine(lines[i]).value.value, t);
  }

  /** The converse of `ObserveRendered`: a successful read means the
      credentials resolved and the BMC returned a report in which every
      line parsed, and the temperature is the whole part of the decimal
      literal in the first `CPU_Diode_Temp` record. */
  lemma ObservedReading(cfg: Config, ch: Channel, t: int) returns (i: nat, l: Literal)
    requires Observe(cfg, ch) == Ok(t)
    ensures Resolve(Unset, cfg.credentials).Ok? && ch.report.Some?
    ensures var lines := SplitLines(ch.report.value);
      && (forall k :: 0 <= k < |lines| ==> ParseLine(lines[k]).Ok?)
      && i < |lines| && ParseLine(lines[i]).value.name == TargetSensor
      && (forall j :: 0 <= j < i ==> ParseLine(lines[j]).value.name != TargetSensor)
    ensures ValidLiteral(l) && Strip(ParseLine(SplitLines(ch.report.value)[i]).value.value) == Spell(l)
    ensures LiteralValue(l) == t
  {
    i, l := ReportedTemperature(ch.report.value, t);
  }

  /** The state after an iteration, the commands it sent, and whether it
      ended in an exception the loop caught and logged. */
  datatype Step = Step(percent: int, sent: seq<Command>, result: Result<()>)

  /** The duties the driver can be at: from the default up to the
      ceiling, or just the default when the ceiling is below it. */
  predicate InRange(cfg: Config, p: int) {
    DefaultFanPercent <= p <= Max(DefaultFanPercent, cfg.maxPercent)
  }

  /** What the loop body does with the temperature it read, from duty
      `active`: an exception before the decision leaves the duty alone
      and sends nothing; a step up raises the duty and broadcasts it,
      and an exception from the broadcast comes after the duty was
      raised, so the raised duty stays; a reset changes the duty but
      sends nothing. */
  function Respond(cfg: Config, active: int, reading: Result<int>, replies: seq<bool>): (s: Step)
    ensures reading.Err? ==> s == Step(active, [], reading.PropagateFailure())
    ensures reading.Ok? && Decide(cfg, active, reading.value).StepUp?
        ==> var target := Decide(cfg, active, reading.value).target;
            var b := Broadcast(target, Unset, cfg.credentials, replies);
            && s.percent == target
            && s.sent == b.sent
            && s.result == b.result
    ensures reading.Ok? && !Decide(cfg, active, reading.value).StepUp? ==> s.sent == [] && s.result.Ok?
    ensures reading.Ok? && Decide(cfg, active, reading.value).Reset? ==> s.percent == DefaultFanPercent
    ensures reading.Ok? && Decide(cfg, active, reading.value).Hold? ==> s.percent == active
    ensures InRange(cfg, active) ==> InRange(cfg, s.percent)
  {
    match reading
    case Err(e) => Step(active, [], Err(e))
    case Ok(temp) =>
      match Decide(cfg, active, temp)
      case StepUp(target) =>
        var b := Broadcast(target, Unset, cfg.credentials, replies);
        Step(target, b.sent, b.result)
      case Reset => Step(DefaultFanPercent, [], Ok(()))
      case Hold => Step(active, [], Ok(()))
  }

  /** One pass of the loop body from duty `active`: read the report,
      then respond to the temperature it gives. */
  function Iterate(cfg: Config, active: int, ch: Channel): (s: Step)
    ensures Observe(cfg, ch).Err? ==> s.percent == active && s.result == Observe(cfg, ch).PropagateFailure()
    ensures Observe(cfg, ch).Err? ==> s.sent == FetchReport(Unset, cfg.credentials, ch.report).sent
    ensures Resolve(Unset, cfg.credentials).Ok?
        ==> |s.sent| > 0 && s.sent[0] == ReadSensors(Resolve(Unset, cfg.credentials).value)
    ensures InRange(cfg, active) ==> InRange(cfg, s.percent)
  {
    var fetch := FetchReport(Unset, cfg.credentials, ch.report);
    var r := Respond(cfg, active, Observe(cfg, ch), ch.replies);
    Step(r.percent, fetch.sent + r.sent, r.result)
  }

  /** Start-up: the default duty broadcast to every fan. This call is
      outside the loop's exception handler, so its failure ends the
      driver. */
  function Start(cfg: Config, replies: seq<bool>): (s: Step)
    ensures s.percent == DefaultFanPercent
    ensures Resolve(Unset, cfg.credentials).Err?
        ==> s.sent == [] && s.result == Resolve(Unset, cfg.credentials).PropagateFailure()
    ensures Resolve(Unset, cfg.credentials).Ok? && FirstRefusal(replies, FanLimit - FirstFan) == FanLimit - FirstFan
        ==> s.result.Ok? && |s.sent| == FanLimit - FirstFan
            && forall i :: 0 <= i < |s.sent|
                 ==> s.sent[i] == SetFan(Resolve(Unset, cfg.credentials).value, FirstFan + i, DefaultFanPercent)
  {
    var b := Broadcast(DefaultFanPercent, Unset, cfg.credentials, replies);
    Step(DefaultFanPercent, b.sent, b.result)
  }

  /** The duty after one iteration per channel, in order. */
  function Run(cfg: Config, active: int, chs: seq<Channel>): (r: int)
    ensures InRange(cfg, active) ==> InRange(cfg, r)
    decreases |chs|
  {
    if |chs| == 0 then active else Run(cfg, Iterate(cfg, active, chs[0]).percent, chs[1..])
  }

  // ---------------------------------------------------------------------
  // Runs, seen through what each iteration observed

  /** What one iteration observed: the temperature (or the error reading
      it) and the BMC's answers to the fan commands. */
  datatype Poll = Poll(reading: Result<int>, replies: seq<bool>)

  /** The observations of the iterations that read `chs`. */
  function Polls(cfg: Config, chs: seq<Channel>): seq<Poll> {
    seq(|chs|, k requires 0 <= k < |chs| => Poll(Observe(cfg, chs[k]), chs[k].replies))
  }

  /** The duty after responding to each observation, in order. */
  function Duty(cfg: Config, active: int, polls: seq<Poll>): int
    decreases |polls|
  {
    if |polls| == 0 then active
    else Duty(cfg, Respond(cfg, active, polls[0].reading, polls[0].replies).percent, polls[1..])
  }

  /** A run's duty depends on the channels only through what each
      iteration observed. */
  lemma {:induction false} RunDuty(cfg: Config, active: int, chs: seq<Channel>)
    ensures Run(cfg, active, chs) == Duty(cfg, active, Polls(cfg, chs))
    decreases |chs|
  {
    if |chs| > 0 {
      var next := Iterate(cfg, active, chs[0]).percent;
      RunDuty(cfg, next, chs[1..]);
      assert Polls(cfg, chs)[1..] == Polls(cfg, chs[1..]);
    }
  }

  /** Every duty reached from a duty in range is in range. */
  lemma {:induction false} DutyInRange(cfg: Config, active: int, polls: seq<Poll>)
    requires InRange(cfg, active)
    ensures InRange(cfg, Duty(cfg, active, polls))
    decreases |polls|
  {
    if |polls| > 0 {
      DutyInRange(cfg, Respond(cfg, active, polls[0].reading, polls[0].replies).percent, polls[1..]);
    }
  }

  /** A reading above the threshold. */
  predicate Hot(cfg: Config, reading: Result<int>) {
    reading.Ok? && reading.value > cfg.threshold
  }

  /** A reading below the threshold. */
  predicate Cold(cfg: Config, reading: Result<int>) {
    reading.Ok? && reading.value < cfg.threshold
  }

  /** The duty after `n` hot readings from `active`: one step per
      reading, capped at the ceiling; a duty at or above the ceiling
      stays where it is. */
  function HotDuty(cfg: Config, active: int, n: nat): int {
    if active >= cfg.maxPercent then active else Min(active + n * FanStep, cfg.maxPercent)
  }

  /** Hot readings raise the duty one step per reading until it reaches
      the ceiling, whether or not the broadcasts succeed. */
  lemma {:induction false} HotRun(cfg: Config, active: int, polls: seq<Poll>)
    requires forall k :: 0 <= k < |polls| ==> Hot(cfg, polls[k].reading)
    ensures Duty(cfg, active, polls) == HotDuty(cfg, active, |polls|)
    decreases |polls|
  {
    if |polls| > 0 {
      var next := Respond(cfg, active, polls[0].reading, polls[0].replies).percent;
      assert forall k :: 0 <= k < |polls| - 1 ==> polls[1..][k] == polls[k + 1];
      HotRun(cfg, next, polls[1..]);
      HotDutyStep(cfg, active, |polls| - 1);
    }
  }

  lemma HotDutyStep(cfg: Config, active: int, n: nat)
    ensures HotDuty(cfg, HotDuty(cfg, active, 1), n) == HotDuty(cfg, active, n + 1)
  {
  }

  /** Enough hot readings bring the duty to the ceiling. */
  lemma HotRunSaturates(cfg: Config, active: int, polls: seq<Poll>)
    requires forall k :: 0 <= k < |polls| ==> Hot(cfg, polls[k].reading)
    requires active <= cfg.maxPercent <= active + |polls| * FanStep
    ensures Duty(cfg, active, polls) == cfg.maxPercent
  {
    HotRun(cfg, active, polls);
  }

  /** Over hot readings the duty never goes down. */
  lemma HotRunMonotone(cfg: Config, active: int, polls: seq<Poll>, i: nat, j: nat)
    requires forall k :: 0 <= k < |polls| ==> Hot(cfg, polls[k].reading)
    requires i <= j <= |polls|
    ensures active <= Duty(cfg, active, polls[..i]) <= Duty(cfg, active, polls[..j])
  {
    HotRun(cfg, active, polls[..i]);
    HotRun(cfg, active, polls[..j]);
  }

  /** Cold readings drop a duty above the default to the default at the
      first reading and keep it there. */
  lemma {:induction false} ColdRun(cfg: Config, active: int, polls: seq<Poll>)
    requires forall k :: 0 <= k < |polls| ==> Cold(cfg, polls[k].reading)
    ensures Duty(cfg, active, polls)
         == if |polls| > 0 && active > DefaultFanPercent then DefaultFanPercent else active
    decreases |polls|
  {
    if |polls| > 0 {
      var next := Respond(cfg, active, polls[0].reading, polls[0].replies).percent;
      assert forall k :: 0 <= k < |polls| - 1 ==> polls[1..][k] == polls[k + 1];
      ColdRun(cfg, next, polls[1..]);
    }
  }

  // ---------------------------------------------------------------------
  // What the fans are left at

  /** The duty `fan` was last commanded by `cmds`, or `prior` when no
      command in `cmds` addresses it. */
  function LastDuty(prior: int, fan: int, cmds: seq<Command>): int
    decreases |cmds|
  {
    if |cmds| == 0 then prior
    else
      var last := cmds[|cmds| - 1];
      if last.SetFan? && last.fan == fan then last.percent else LastDuty(prior, fan, cmds[..|cmds| - 1])
  }

  /** A broadcast that got through leaves every fan it addresses at its
      duty, and no other fan changes. */
  lemma {:induction false} BroadcastLeaves(percent: int, defaults: Credentials, replies: seq<bool>,
                                           prior: int, fan: int)
    requires FanCommand(FirstFan, percent, Unset, defaults).Ok?
    requires FirstRefusal(replies, FanLimit - FirstFan) == FanLimit - FirstFan
    ensures LastDuty(prior, fan, Broadcast(percent, Unset, defaults, replies).sent)
         == if FirstFan <= fan < FanLimit then percent else prior
  {
    var cmds := Broadcast(percent, Unset, defaults, replies).sent;
    if FirstFan <= fan < FanLimit {
      var i := fan - FirstFan;
      assert cmds[i] == SetFan(Resolve(Unset, defaults).value, fan, percent);
      LaterCommandsOtherFans(prior, fan, cmds, i);
    } else {
      OtherFansOnly(prior, fan, cmds, |cmds|);
    }
  }

  /** Commands after position `i` that address other fans leave `fan` at
      what the command at `i` set. */
  lemma {:induction false} LaterCommandsOtherFans(prior: int, fan: int, cmds: seq<Command>, i: nat)
    requires i < |cmds| && cmds[i].SetFan? && cmds[i].fan == fan
    requires forall j :: i < j < |cmds| ==> cmds[j].SetFan? && cmds[j].fan != fan
    ensures LastDuty(prior, fan, cmds) == cmds[i].percent
    decreases |cmds|
  {
    if i < |cmds| - 1 {
      LaterCommandsOtherFans(prior, fan, cmds[..|cmds| - 1], i);
    }
  }

  /** Commands that never address `fan` leave it at `prior`. */
  lemma {:induction false} OtherFansOnly(prior: int, fan: int, cmds: seq<Command>, n: nat)
    requires n == |cmds|
    requires forall j :: 0 <= j < n ==> !(cmds[j].SetFan? && cmds[j].fan == fan)
    ensures LastDuty(prior, fan, cmds) == prior
    decreases n
  {
    if n > 0 {
      OtherFansOnly(prior, fan, cmds[..n - 1], n - 1);
    }
  }

  /** A cold reading above the default duty sets the driver's duty to
      the default but commands no fan: every fan keeps running at the
      duty it was last given. */
  lemma ResetLeavesFans(cfg: Config, active: int, reading: Result<int>, replies: seq<bool>,
                        prior: int, before: seq<Command>, fan: int)
    requires Cold(cfg, reading) && active > DefaultFanPercent
    ensures var s := Respond(cfg, active, reading, replies);
            && s.percent == DefaultFanPercent
            && LastDuty(prior, fan, before + s.sent) == LastDuty(prior, fan, before)
  {
    var s := Respond(cfg, active, reading, replies);
    assert before + s.sent == before;
  }

  /** After a reset from a duty more than one step above the default,
      every fan still runs at what it was last given, and the next hot
      reading commands `min(15, MAX_PERCENT)` to every fan once the
      broadcast gets through: a duty below the one the driver held
      before the reset. */
  lemma HotAfterReset(cfg: Config, active: int, prior: int, earlier: seq<Command>,
                      cold: Poll, hot: Poll, fan: int)
    requires Resolve(Unset, cfg.credentials).Ok?
    requires Cold(cfg, cold.reading) && Hot(cfg, hot.reading)
    requires DefaultFanPercent < cfg.maxPercent && active > DefaultFanPercent + FanStep
    requires FirstRefusal(hot.replies, FanLimit - FirstFan) == FanLimit - FirstFan
    requires FirstFan <= fan < FanLimit
    ensures var s := Respond(cfg, active, cold.reading, cold.replies);
            var t := Respond(cfg, s.percent, hot.reading, hot.replies);
            && LastDuty(prior, fan, earlier + s.sent) == LastDuty(prior, fan, earlier)
            && t.percent == Min(DefaultFanPercent + FanStep, cfg.maxPercent)
            && t.percent < active
            && LastDuty(prior, fan, earlier + s.sent + t.sent) == t.percent
  {
    var s := Respond(cfg, active, cold.reading, cold.replies);
    var t := Respond(cfg, s.percent, hot.reading, hot.replies);
    ResetLeavesFans(cfg, active, cold.reading, cold.replies, prior, earlier, fan);
    BroadcastLeaves(t.percent, cfg.credentials, hot.replies, LastDuty(prior, fan, earlier + s.sent), fan);
    LastDutyAfter(prior, fan, earlier + s.sent, t.sent);
  }

  /** Commands that address `fan` decide its duty whatever came before. */
  lemma {:induction false} LastDutyAfter(prior: int, fan: int, first: seq<Command>, second: seq<Command>)
    ensures LastDuty(prior, fan, first + second) == LastDuty(LastDuty(prior, fan, first), fan, second)
    decreases |second|
  {
    if |second| > 0 {
      assert (first + second)[|first + second| - 1] == second[|second| - 1];
      assert (first + second)[..|first + second| - 1] == first + second[..|second| - 1];
      LastDutyAfter(prior, fan, first, second[..|second| - 1]);
    } else {
      assert first + second == first;
    }
  }

  /** With a ceiling of 100 or more, a step up to 100 or beyond is kept
      as the driver's duty, but the duty check refuses the first fan
      command, so no fan is commanded and the iteration ends in the
      error. */
  lemma StepPastPercentLimit(cfg: Config, active: int, reading: Result<int>, replies: seq<bool>)
    requires Hot(cfg, reading) && active < cfg.maxPercent
    requires Resolve(Unset, cfg.credentials).Ok?
    requires Min(active + FanStep, cfg.maxPercent) >= PercentLimit
    ensures var s := Respond(cfg, active, reading, replies);
            && s.percent == Min(active + FanStep, cfg.maxPercent)
            && s.result == Err(PercentOutOfRange(s.percent))
            && s.sent == []
  {
  }

  /** A report printed from records whose first `CPU_Diode_Temp` record
      holds `str(t)`, with or without a fraction, reads as `t`. */
  lemma ObserveRendered(cfg: Config, events: seq<SensorEvent>, t: int, fraction: string,
                        replies: seq<bool>)
    requires Resolve(Unset, cfg.credentials).Ok?
    requires forall k :: 0 <= k < |events| ==> Printable(events[k])
    requires AllDigits(fraction)
    requires Lookup(events, TargetSensor).Ok?
    requires Lookup(events, TargetSensor).value.value in {ShowInt(t), ShowInt(t) + "." + fraction}
    ensures Observe(cfg, Channel(Some(RenderReport(events)), replies)) == Ok(t)
  {
    ParseRenderReport(events);
    TruncateShown(t, fraction);
  }
}

=== FILE: ipmi.dfy ===
/** The two `ipmitool` calls the driver makes: reading the sensor
    report and setting the duty of one fan, with the credential and
    argument checks that come before each. The BMC on the other side is
    an oracle: its answers are parameters.
 */
module Ipmi {
  import opened Results

  /** Host, user name and password, each possibly unset: the keyword
      arguments of a call, or the `IPMI_*` values read at start-up. */
  datatype Credentials = Credentials(host: Option<string>, username: Option<string>, password: Option<string>)

  /** No keyword argument given: every call the driver makes looks like this. */
  const Unset: Credentials := Credentials(None, None, None)

  /** The credentials a command goes out with. */
  datatype Login = Login(host: string, username: string, password: string)

  /** What goes to the BMC: `ipmitool ... sensor`, or
      `ipmitool ... raw 0x3c 0x14 <fan> <percent>`. */
  datatype Command =
    | ReadSensors(login: Login)
    | SetFan(login: Login, fan: int, percent: int)

  /** The fans the driver drives: `range(2, 7)`. */
  const FirstFan: int := 2
  const FanLimit: int := 7

  /** The accepted duties: `range(0, 100)`. */
  const PercentLimit: int := 100

  /** A value Python treats as true: set and not empty. */
  predicate Truthy(v: Option<string>) {
    v.Some? && v.value != ""
  }

  /** `explicit if explicit else fallback`. */
  function Pick(explicit: Option<string>, fallback: Option<string>): Option<string> {
    if Truthy(explicit) then explicit else fallback
  }

  /** A credential can be had from the call or from the defaults. */
  predicate Available(explicit: Option<string>, fallback: Option<string>) {
    Truthy(explicit) || Truthy(fallback)
  }

  /** The credential a call ends up using: the explicit one when it is
      truthy, else the default. */
  function Chosen(explicit: Option<string>, fallback: Option<string>): string
    requires Available(explicit, fallback)
  {
    Pick(explicit, fallback).value
  }

  /** Resolving the three credentials, each explicit-else-default; the
      first one missing, in the order host, user name, password, is the
      error. */
  function Resolve(explicit: Credentials, defaults: Credentials): (r: Result<Login>)
    ensures r == Err(MissingHost) <==> !Available(explicit.host, defaults.host)
    ensures r == Err(MissingUsername)
        <==> Available(explicit.host, defaults.host) && !Available(explicit.username, defaults.username)
    ensures r == Err(MissingPassword)
        <==> Available(explicit.host, defaults.host) && Available(explicit.username, defaults.username)
             && !Available(explicit.password, defaults.password)
    ensures r.Ok? <==> Available(explicit.host, defaults.host) && Available(explicit.username, defaults.username)
                       && Available(explicit.password, defaults.password)
    ensures r.Ok? ==> r.value == Login(Chosen(explicit.host, defaults.host),
                                       Chosen(explicit.username, defaults.username),
                                       Chosen(explicit.password, defaults.password))
  {
    var host := Pick(explicit.host, defaults.host);
    var username := Pick(explicit.username, defaults.username);
    var password := Pick(explicit.password, defaults.password);
    if !Truthy(host) then Err(MissingHost)
    else if !Truthy(username) then Err(MissingUsername)
    else if !Truthy(password) then Err(MissingPassword)
    else Ok(Login(host.value, username.value, password.value))
  }

  /** The fan-duty command a call would send, after the credential
      checks, then the fan check, then the duty check. */
  function FanCommand(fan: int, percent: int, explicit: Credentials, defaults: Credentials): (r: Result<Command>)
    ensures Resolve(explicit, defaults).Err? ==> r == Resolve(explicit, defaults).PropagateFailure()
    ensures Resolve(explicit, defaults).Ok? && !(FirstFan <= fan < FanLimit)
        ==> r == Err(FanOutOfRange(fan))
    ensures Resolve(explicit, defaults).Ok? && FirstFan <= fan < FanLimit && !(0 <= percent < PercentLimit)
        ==> r == Err(PercentOutOfRange(percent))
    ensures r.Ok? <==> Resolve(explicit, defaults).Ok? && FirstFan <= fan < FanLimit && 0 <= percent < PercentLimit
    ensures r.Ok? ==> r.value == SetFan(Resolve(explicit, defaults).value, fan, percent)
  {
    var login :- Resolve(explicit, defaults);
    if !(FirstFan <= fan < FanLimit) then Err(FanOutOfRange(fan))
    else if !(0 <= percent < PercentLimit) then Err(PercentOutOfRange(percent))
    else Ok(SetFan(login, fan, percent))
  }

  /** The commands a call put on the wire, and how it ended. */
  datatype Trace = Trace(sent: seq<Command>, result: Result<()>)

  /** One `ipmi_set_falcon_fan_percent` call; `accepted` says whether
      the BMC acknowledged the command, were it sent. */
  function SetFanPercent(fan: int, percent: int, explicit: Credentials, defaults: Credentials,
                         accepted: bool): (t: Trace)
    ensures FanCommand(fan, percent, explicit, defaults).Err?
        ==> t == Trace([], FanCommand(fan, percent, explicit, defaults).PropagateFailure())
    ensures FanCommand(fan, percent, explicit, defaults).Ok?
        ==> t.sent == [FanCommand(fan, percent, explicit, defaults).value]
    ensures t.result.Ok? <==> FanCommand(fan, percent, explicit, defaults).Ok? && accepted
    ensures t.result.Err? && t.sent != [] ==> t.result.error == ChannelFailure
  {
    match FanCommand(fan, percent, explicit, defaults)
    case Err(e) => Trace([], Err(e))
    case Ok(cmd) => Trace([cmd], if accepted then Ok(()) else Err(ChannelFailure))
  }

  /** Whether the BMC acknowledged the i-th command sent; a command with
      no answer on record counts as failed. */
  predicate Acknowledged(replies: seq<bool>, i: nat) {
    i < |replies| && replies[i]
  }

  /** `set_falcon_fan_percent`: the same duty to fans `fan`, `fan + 1`,
      ..., 6, in order, stopping at the first call that fails. The
      replies answer the commands in the order they are sent. */
  function BroadcastFrom(fan: int, percent: int, explicit: Credentials, defaults: Credentials,
                         replies: seq<bool>): (t: Trace)
    requires FirstFan <= fan <= FanLimit
    ensures |t.sent| <= FanLimit - fan
    ensures forall i :: 0 <= i < |t.sent| ==> FanCommand(fan + i, percent, explicit, defaults) == Ok(t.sent[i])
    decreases FanLimit - fan
  {
    if fan == FanLimit then Trace([], Ok(()))
    else
      var first := SetFanPercent(fan, percent, explicit, defaults, Acknowledged(replies, 0));
      if first.result.Err? then first
      else
        var rest := BroadcastFrom(fan + 1, percent, explicit, defaults, if |replies| > 0 then replies[1..] else []);
        Trace(first.sent + rest.sent, rest.result)
  }

  /** How many of the first `n` commands the BMC acknowledged before
      the first one it did not. */
  function FirstRefusal(replies: seq<bool>, n: nat): (k: nat)
    ensures k <= n
    ensures forall i :: 0 <= i < k ==> Acknowledged(replies, i)
    ensures k < n ==> !Acknowledged(replies, k)
  {
    if n == 0 || !Acknowledged(replies, 0) then 0
    else
      var k := FirstRefusal(replies[1..], n - 1);
      assert forall i :: 1 <= i <= k ==> Acknowledged(replies[1..], i - 1) == Acknowledged(replies, i);
      1 + k
  }

  /** Once the command checks pass, a broadcast from `fan` sends one
      command per fan up to and including the first one refused, and
      fails exactly when some fan refused. */
  lemma {:induction false} BroadcastFromStops(fan: int, percent: int, explicit: Credentials,
                                              defaults: Credentials, replies: seq<bool>)
    requires FirstFan <= fan <= FanLimit
    requires FanCommand(FirstFan, percent, explicit, defaults).Ok?
    ensures var t := BroadcastFrom(fan, percent, explicit, defaults, replies);
            var k := FirstRefusal(replies, FanLimit - fan);
            && |t.sent| == (if k < FanLimit - fan then k + 1 else k)
            && (t.result.Ok? <==> k == FanLimit - fan)
            && (t.result.Err? ==> t.result.error == ChannelFailure)
    decreases FanLimit - fan
  {
    if fan < FanLimit && Acknowledged(replies, 0) {
      BroadcastFromStops(fan + 1, percent, explicit, defaults, replies[1..]);
    }
  }

  /** `set_falcon_fan_percent(percent)`: the duty to fans 2 to 6, in
      order, stopping at the first failed call. A bad credential or duty
      fails the first call, before anything is sent; otherwise every fan
      up to the first one the BMC refused gets the command. */
  function Broadcast(percent: int, explicit: Credentials, defaults: Credentials, replies: seq<bool>): (t: Trace)
    ensures forall i :: 0 <= i < |t.sent| ==> FanCommand(FirstFan + i, percent, explicit, defaults) == Ok(t.sent[i])
    ensures FanCommand(FirstFan, percent, explicit, defaults).Err?
        ==> t == Trace([], FanCommand(FirstFan, percent, explicit, defaults).PropagateFailure())
    ensures FanCommand(FirstFan, percent, explicit, defaults).Ok?
        ==> var k := FirstRefusal(replies, FanLimit - FirstFan);
            && |t.sent| == (if k < FanLimit - FirstFan then k + 1 else k)
            && (t.result.Ok? <==> k == FanLimit - FirstFan)
            && (t.result.Err? ==> t.result.error == ChannelFailure)
  {
    if FanCommand(FirstFan, percent, explicit, defaults).Ok? then
      BroadcastFromStops(FirstFan, percent, explicit, defaults, replies);
      BroadcastFrom(FirstFan, percent, explicit, defaults, replies)
    else
      BroadcastFrom(FirstFan, percent, explicit, defaults, replies)
  }

  /** The fetch of a report: the command sent, if any, and the text. */
  datatype Fetch = Fetch(sent: seq<Command>, result: Result<string>)

  /** `ipmi_sensor`: the credential checks, then the sensor read. The
      output is what the BMC answered, `None` when the command failed or
      timed out. */
  function FetchReport(explicit: Credentials, defaults: Credentials, output: Option<string>): (f: Fetch)
    ensures Resolve(explicit, defaults).Err?
        ==> f == Fetch([], Resolve(explicit, defaults).PropagateFailure())
    ensures Resolve(explicit, defaults).Ok? ==> f.sent == [ReadSensors(Resolve(explicit, defaults).value)]
    ensures f.result.Ok? <==> Resolve(explicit, defaults).Ok? && output.Some?
    ensures f.result.Ok? ==> f.result.value == output.value
    ensures f.result.Err? && f.sent != [] ==> f.result.error == ChannelFailure
  {
    match Resolve(explicit, defaults)
    case Err(e) => Fetch([], Err(e))
    case Ok(login) =>
      match output
      case None => Fetch([ReadSensors(login)], Err(ChannelFailure))
      case Some(text) => Fetch([ReadSensors(login)], Ok(text))
  }
}

=== FILE: pystr.dfy ===
/** The Python `str` operations the sensor parser relies on: `isspace`,
    `strip`, `split(sep)`, `sep.join(parts)` and `splitlines`, each on a
    string seen as a sequence of Unicode scalar values.
 */
module PyStr {

  /** `c.isspace()`: the characters Python classes as whitespace
      (bidirectional class WS, B or S, or general category Zs). */
  predicate IsSpace(c: char) {
    || ('\t' <= c <= '\r')
    || ('\U{1C}' <= c <= ' ')
    || c == '\U{85}' || c == '\U{A0}' || c == '\U{1680}'
    || ('\U{2000}' <= c <= '\U{200A}')
    || c == '\U{2028}' || c == '\U{2029}' || c == '\U{202F}'
    || c == '\U{205F}' || c == '\U{3000}'
  }

  predicate AllSpace(s: string) {
    forall i :: 0 <= i < |s| ==> IsSpace(s[i])
  }

  /** A string that `strip()` leaves alone: empty, or starting and
      ending with a non-whitespace character. */
  predicate Stripped(s: string) {
    s == [] || (!IsSpace(s[0]) && !IsSpace(s[|s| - 1]))
  }

  /** The leading half of `strip()`: drops every leading whitespace
      character. */
  function TrimStart(s: string): string
    decreases |s|
  {
    if |s| > 0 && IsSpace(s[0]) then TrimStart(s[1..]) else s
  }

  /** The trailing half of `strip()`: drops every trailing whitespace
      character. */
  function TrimEnd(s: string): string
    decreases |s|
  {
    if |s| > 0 && IsSpace(s[|s| - 1]) then TrimEnd(s[..|s| - 1]) else s
  }

  /** `s.strip()`: `s` with its leading and trailing whitespace removed. */
  function Strip(s: string): (r: string)
    ensures |r| <= |s|
    ensures Stripped(r)
  {
    var t := TrimStart(s);
    TrimStartShape(s);
    TrimEndShape(t);
    var r := TrimEnd(t);
    assert r != [] ==> r[0] == t[0];
    r
  }

  /** `TrimStart(s)` is the suffix of `s` after its whitespace prefix. */
  lemma {:induction false} TrimStartShape(s: string)
    ensures var r := TrimStart(s);
            && |r| <= |s| && r == s[|s| - |r|..]
            && AllSpace(s[..|s| - |r|])
            && (r == [] || !IsSpace(r[0]))
    decreases |s|
  {
    if |s| > 0 && IsSpace(s[0]) {
      TrimStartShape(s[1..]);
      var r := TrimStart(s[1..]);
      assert s[..|s| - |r|] == [s[0]] + s[1..][..|s| - 1 - |r|];
    }
  }

  /** `TrimEnd(s)` is the prefix of `s` before its whitespace suffix. */
  lemma {:induction false} TrimEndShape(s: string)
    ensures var r := TrimEnd(s);
            && |r| <= |s| && r == s[..|r|]
            && AllSpace(s[|r|..])
            && (r == [] || !IsSpace(r[|r| - 1]))
    decreases |s|
  {
    if |s| > 0 && IsSpace(s[|s| - 1]) {
      TrimEndShape(s[..|s| - 1]);
      var r := TrimEnd(s[..|s| - 1]);
      assert s[|r|..] == s[..|s| - 1][|r|..] + [s[|s| - 1]];
    }
  }

  /** `s.strip()` is the infix of `s` between a whitespace prefix and a
      whitespace suffix, and itself neither starts nor ends with
      whitespace. */
  lemma StripShape(s: string)
    ensures Stripped(Strip(s))
    ensures var r := Strip(s); var i := |s| - |TrimStart(s)|;
            && 0 <= i && i + |r| <= |s| && r == s[i..i + |r|]
            && AllSpace(s[..i]) && AllSpace(s[i + |r|..])
  {
    var t := TrimStart(s);
    TrimStartShape(s);
    var r := TrimEnd(t);
    TrimEndShape(t);
    assert Strip(s) == r;
    var i := |s| - |t|;
    assert t == s[i..];
    assert r == t[..|r|] == s[i..i + |r|];
    assert s[i + |r|..] == t[|r|..];
  }

  /** Number of occurrences of `c` in `s`. */
  function Count(s: string, c: char): nat {
    if |s| == 0 then 0 else (if s[0] == c then 1 else 0) + Count(s[1..], c)
  }

  /** `s.split(sep)` for a one-character separator: the maximal
      separator-free pieces, in order, including empty ones. */
  function Split(s: string, sep: char): (r: seq<string>)
    ensures |r| == Count(s, sep) + 1
    ensures forall k :: 0 <= k < |r| ==> sep !in r[k]
    decreases |s|
  {
    if |s| == 0 then
      [""]
    else
      var rest := Split(s[1..], sep);
      if s[0] == sep then [""] + rest else [[s[0]] + rest[0]] + rest[1..]
  }

  /** `sep.join(parts)`. */
  function Join(parts: seq<string>, sep: char): string
    decreases |parts|
  {
    if |parts| == 0 then ""
    else if |parts| == 1 then parts[0]
    else parts[0] + [sep] + Join(parts[1..], sep)
  }

  /** The characters at which `str.splitlines()` ends a line. */
  predicate IsLineBreak(c: char) {
    || c == '\n' || c == '\r' || c == '\U{0B}' || c == '\U{0C}'
    || c == '\U{1C}' || c == '\U{1D}' || c == '\U{1E}' || c == '\U{85}'
    || c == '\U{2028}' || c == '\U{2029}'
  }

  predicate NoLineBreak(s: string) {
    forall i :: 0 <= i < |s| ==> !IsLineBreak(s[i])
  }

  /** Length of the first line of `s`: the index of its first line
      break, or `|s|` when it has none. */
  function LineEnd(s: string): (i: nat)
    ensures i <= |s| && NoLineBreak(s[..i])
    ensures i < |s| ==> IsLineBreak(s[i])
  {
    if |s| == 0 || IsLineBreak(s[0]) then 0
    else
      var i := 1 + LineEnd(s[1..]);
      assert s[..i] == [s[0]] + s[1..][..i - 1];
      i
  }

  /** `s.splitlines()`: lines without their terminators, where "\r\n"
      ends one line and a final terminator opens no empty last line. */
  function SplitLines(s: string): (r: seq<string>)
    ensures forall k :: 0 <= k < |r| ==> NoLineBreak(r[k])
    decreases |s|
  {
    if |s| == 0 then []
    else
      var i := LineEnd(s);
      if i == |s| then [s]
      else
        var next := if s[i] == '\r' && i + 1 < |s| && s[i + 1] == '\n' then i + 2 else i + 1;
        [s[..i]] + SplitLines(s[next..])
  }

  /** Text whose every line ends in "\n", as a command prints it. */
  function JoinLines(lines: seq<string>): string {
    if |lines| == 0 then "" else lines[0] + "\n" + JoinLines(lines[1..])
  }

  // ---------------------------------------------------------------------
  // strip()

  lemma {:induction false} TrimStartOfSpaces(a: string, u: string)
    requires AllSpace(a)
    requires u == [] || !IsSpace(u[0])
    ensures TrimStart(a + u) == u
    decreases |a|
  {
    if |a| > 0 {
      assert (a + u)[1..] == a[1..] + u;
      TrimStartOfSpaces(a[1..], u);
    } else {
      assert a + u == u;
    }
  }

  lemma {:induction false} TrimEndOfSpaces(u: string, b: string)
    requires AllSpace(b)
    requires u == [] || !IsSpace(u[|u| - 1])
    ensures TrimEnd(u + b) == u
    decreases |b|
  {
    if |b| > 0 {
      assert (u + b)[..|u + b| - 1] == u + b[..|b| - 1];
      TrimEndOfSpaces(u, b[..|b| - 1]);
    } else {
      assert u + b == u;
    }
  }

  /** `strip()` removes exactly the whitespace around a stripped core:
      `(a + t + b).strip() == t` for whitespace `a`, `b`. */
  lemma StripPadded(a: string, t: string, b: string)
    requires AllSpace(a) && AllSpace(b) && Stripped(t)
    ensures Strip(a + t + b) == t
  {
    if t == [] {
      assert a + t + b == a + b;
      assert AllSpace(a + b);
      TrimStartOfSpaces(a + b, []);
      assert a + b + [] == a + b;
    } else {
      assert a + t + b == a + (t + b);
      TrimStartOfSpaces(a, t + b);
      TrimEndOfSpaces(t, b);
    }
  }

  /** `strip()` leaves a string with no whitespace at its ends alone. */
  lemma StrippedFixed(t: string)
    requires Stripped(t)
    ensures Strip(t) == t
  {
    StripPadded([], t, []);
    assert [] + t + [] == t;
  }

  /** `strip()` is idempotent. */
  lemma StripIdempotent(s: string)
    ensures Strip(Strip(s)) == Strip(s)
  {
    var t := Strip(s);
    StripShape(s);
    StripPadded([], t, []);
    assert [] + t + [] == t;
  }

  /** A non-whitespace character right after the leading part shields
      the rest of the string from the leading trim. */
  lemma {:induction false} TrimStartBefore(a: string, b: string)
    requires |b| > 0 && !IsSpace(b[0])
    ensures TrimStart(a + b) == TrimStart(a) + b
    decreases |a|
  {
    if |a| > 0 && IsSpace(a[0]) {
      assert (a + b)[1..] == a[1..] + b;
      TrimStartBefore(a[1..], b);
    } else if |a| == 0 {
      assert a + b == b;
    }
  }

  lemma {:induction false} TrimEndAfter(a: string, b: string)
    requires |a| > 0 && !IsSpace(a[|a| - 1])
    ensures TrimEnd(a + b) == a + TrimEnd(b)
    decreases |b|
  {
    if |b| > 0 && IsSpace(b[|b| - 1]) {
      assert (a + b)[..|a + b| - 1] == a + b[..|b| - 1];
      TrimEndAfter(a, b[..|b| - 1]);
    } else if |b| == 0 {
      assert a + b == a;
    }
  }

  lemma TrimStartIsSuffix(s: string, c: char)
    requires c !in s
    ensures c !in TrimStart(s)
  {
    TrimStartShape(s);
  }

  lemma TrimEndIsPrefix(s: string, c: char)
    requires c !in s
    ensures c !in TrimEnd(s)
  {
    TrimEndShape(s);
  }

  // ---------------------------------------------------------------------
  // Count

  lemma {:induction false} CountAppend(a: string, b: string, c: char)
    ensures Count(a + b, c) == Count(a, c) + Count(b, c)
    decreases |a|
  {
    if |a| > 0 {
      assert (a + b)[1..] == a[1..] + b;
      CountAppend(a[1..], b, c);
    } else {
      assert a + b == b;
    }
  }

  lemma {:induction false} CountSpaces(a: string, c: char)
    requires AllSpace(a) && !IsSpace(c)
    ensures Count(a, c) == 0
    decreases |a|
  {
    if |a| > 0 {
      CountSpaces(a[1..], c);
    }
  }

  /** `strip()` never removes a non-whitespace character. */
  lemma StripKeepsCount(s: string, c: char)
    requires !IsSpace(c)
    ensures Count(Strip(s), c) == Count(s, c)
  {
    var r := Strip(s);
    var i := |s| - |TrimStart(s)|;
    StripShape(s);
    assert s == s[..i] + r + s[i + |r|..];
    CountAppend(s[..i] + r, s[i + |r|..], c);
    CountAppend(s[..i], r, c);
    CountSpaces(s[..i], c);
    CountSpaces(s[i + |r|..], c);
  }

  // ---------------------------------------------------------------------
  // split() and join()

  /** `sep.join(s.split(sep)) == s`. */
  lemma {:induction false} JoinSplit(s: string, sep: char)
    ensures Join(Split(s, sep), sep) == s
    decreases |s|
  {
    if |s| > 0 {
      var rest := Split(s[1..], sep);
      JoinSplit(s[1..], sep);
      if s[0] == sep {
        assert Split(s, sep) == [""] + rest;
        assert ([""] + rest)[1..] == rest;
        assert s == [sep] + s[1..];
      } else if |rest| == 1 {
        assert s == [s[0]] + s[1..];
      } else {
        var parts := Split(s, sep);
        assert parts[1..] == rest[1..];
        assert Join(rest, sep) == rest[0] + [sep] + Join(rest[1..], sep);
        assert s == [s[0]] + s[1..];
      }
    }
  }

  lemma {:induction false} SplitOfFree(p: string, sep: char)
    requires sep !in p
    ensures Split(p, sep) == [p]
    decreases |p|
  {
    if |p| > 0 {
      SplitOfFree(p[1..], sep);
      assert [p[0]] + p[1..] == p;
    }
  }

  lemma {:induction false} SplitAfterPiece(p: string, u: string, sep: char)
    requires sep !in p
    ensures Split(p + [sep] + u, sep) == [p] + Split(u, sep)
    decreases |p|
  {
    if |p| == 0 {
      assert p + [sep] + u == [sep] + u;
      assert ([sep] + u)[1..] == u;
    } else {
      var s := p + [sep] + u;
      assert s[1..] == p[1..] + [sep] + u;
      SplitAfterPiece(p[1..], u, sep);
      assert [p[0]] + p[1..] == p;
    }
  }

  /** `sep.join(parts).split(sep) == parts` when no part holds `sep`. */
  lemma {:induction false} SplitJoin(parts: seq<string>, sep: char)
    requires |parts| >= 1
    requires forall k :: 0 <= k < |parts| ==> sep !in parts[k]
    ensures Split(Join(parts, sep), sep) == parts
    decreases |parts|
  {
    if |parts| == 1 {
      SplitOfFree(parts[0], sep);
    } else {
      SplitJoin(parts[1..], sep);
      SplitAfterPiece(parts[0], Join(parts[1..], sep), sep);
      assert [parts[0]] + parts[1..] == parts;
    }
  }

  lemma {:induction false} JoinSnoc(parts: seq<string>, p: string, sep: char)
    requires |parts| >= 1
    ensures Join(parts + [p], sep) == Join(parts, sep) + [sep] + p
    decreases |parts|
  {
    if |parts| == 1 {
      assert (parts + [p])[1..] == [p];
    } else {
      assert (parts + [p])[1..] == parts[1..] + [p];
      JoinSnoc(parts[1..], p, sep);
    }
  }

  /** What lies between the first and the last part of a join of three
      or more parts, separators included. */
  function Inner(parts: seq<string>, sep: char): string
    requires |parts| >= 3
  {
    [sep] + Join(parts[1..|parts| - 1], sep) + [sep]
  }

  /** A join of three or more parts, seen as first part, inner, last part. */
  lemma JoinEnds(parts: seq<string>, sep: char)
    requires |parts| >= 3
    ensures Join(parts, sep) == parts[0] + Inner(parts, sep) + parts[|parts| - 1]
  {
    var n := |parts|;
    assert parts[1..] == parts[1..n - 1] + [parts[n - 1]];
    JoinSnoc(parts[1..n - 1], parts[n - 1], sep);
    RegroupMiddle(parts[0], [sep], Join(parts[1..n - 1], sep), [sep], parts[n - 1]);
  }

  lemma RegroupMiddle(a: string, b: string, c: string, d: string, e: string)
    ensures a + b + (c + d + e) == a + (b + c + d) + e
  {
  }

  /** Replacing the first and last parts of a join of three or more
      leaves the inner text alone. */
  lemma JoinNewEnds(parts: seq<string>, first: string, last: string, sep: char)
    requires |parts| >= 3
    ensures Join([first] + parts[1..|parts| - 1] + [last], sep)
         == first + Inner(parts, sep) + last
  {
    var n := |parts|;
    var q := [first] + parts[1..n - 1] + [last];
    assert q[1..n - 1] == parts[1..n - 1];
    JoinEnds(q, sep);
  }

  /** Stripping text whose middle part starts and ends with a
      non-whitespace character only trims its outer parts. */
  lemma StripFramed(a: string, m: string, b: string)
    requires |m| > 0 && !IsSpace(m[0]) && !IsSpace(m[|m| - 1])
    ensures Strip(a + m + b) == TrimStart(a) + m + TrimEnd(b)
  {
    assert a + m + b == a + (m + b);
    TrimStartBefore(a, m + b);
    var h := TrimStart(a) + m;
    assert TrimStart(a) + (m + b) == h + b;
    assert h[|h| - 1] == m[|m| - 1];
    TrimEndAfter(h, b);
  }

  /** Stripping a joined line only trims the outer side of its first and
      last parts, as long as the separator is not whitespace. */
  lemma StripJoin(parts: seq<string>, sep: char)
    requires |parts| >= 3 && !IsSpace(sep)
    ensures Strip(Join(parts, sep))
         == Join([TrimStart(parts[0])] + parts[1..|parts| - 1] + [TrimEnd(parts[|parts| - 1])], sep)
  {
    var n := |parts|;
    JoinEnds(parts, sep);
    StripFramed(parts[0], Inner(parts, sep), parts[n - 1]);
    JoinNewEnds(parts, TrimStart(parts[0]), TrimEnd(parts[n - 1]), sep);
  }

  /** Stripping after the leading trim is stripping. */
  lemma StripAfterTrimStart(s: string)
    ensures Strip(TrimStart(s)) == Strip(s)
  {
    var r := TrimStart(s);
    TrimStartShape(s);
    TrimStartOfSpaces([], r);
    assert [] + r == r;
  }

  /** Stripping after the trailing trim is stripping. */
  lemma StripAfterTrimEnd(s: string)
    ensures Strip(TrimEnd(s)) == Strip(s)
  {
    var u := TrimEnd(s);
    TrimEndShape(s);
    var w := s[|u|..];
    assert s == u + w;
    var a, b := Frame(u);
    var r := Strip(u);
    SpacesAppend(b, w);
    Regroup4(a, r, b, w);
    StripPadded(a, r, b + w);
  }

  lemma SpacesAppend(a: string, b: string)
    requires AllSpace(a) && AllSpace(b)
    ensures AllSpace(a + b)
  {
    assert forall i :: |a| <= i < |a + b| ==> (a + b)[i] == b[i - |a|];
  }

  lemma Regroup4(a: string, b: string, c: string, d: string)
    ensures a + b + c + d == a + b + (c + d)
  {
  }

  /** Joining pieces free of line breaks with a separator that is not one
      gives a single line. */
  lemma {:induction false} JoinNoLineBreak(parts: seq<string>, sep: char)
    requires !IsLineBreak(sep)
    requires forall k :: 0 <= k < |parts| ==> NoLineBreak(parts[k])
    ensures NoLineBreak(Join(parts, sep))
    decreases |parts|
  {
    if |parts| > 1 {
      JoinNoLineBreak(parts[1..], sep);
      var t := Join(parts[1..], sep);
      assert Join(parts, sep) == parts[0] + [sep] + t;
      assert forall i :: 0 <= i < |t| ==> !IsLineBreak(t[i]);
    }
  }

  /** Any string is its stripped text framed by whitespace. */
  lemma Frame(s: string) returns (front: string, back: string)
    ensures AllSpace(front) && AllSpace(back)
    ensures s == front + Strip(s) + back
  {
    StripShape(s);
    var i := |s| - |TrimStart(s)|;
    var j := i + |Strip(s)|;
    front, back := s[..i], s[j..];
    assert s == s[..i] + s[i..j] + s[j..];
  }

  /** Gluing text onto the outer sides of the first and last parts of a
      join glues it onto the joined text. */
  lemma JoinFramed(parts: seq<string>, front: string, back: string, sep: char)
    requires |parts| >= 3
    ensures var n := |parts|;
      Join([front + parts[0]] + parts[1..n - 1] + [parts[n - 1] + back], sep)
        == front + Join(parts, sep) + back
  {
    var n := |parts|;
    JoinEnds(parts, sep);
    JoinNewEnds(parts, front + parts[0], parts[n - 1] + back, sep);
    var m := Inner(parts, sep);
    assert (front + parts[0]) + m + (parts[n - 1] + back)
        == front + (parts[0] + m + parts[n - 1]) + back;
  }

  /** Splitting a stripped join of separator-free parts gives the parts
      back, with the outer side of the first and last trimmed. */
  lemma SplitStrippedJoin(parts: seq<string>, sep: char)
    requires |parts| >= 3 && !IsSpace(sep)
    requires forall k :: 0 <= k < |parts| ==> sep !in parts[k]
    ensures var n := |parts|;
      Split(Strip(Join(parts, sep)), sep)
        == [TrimStart(parts[0])] + parts[1..n - 1] + [TrimEnd(parts[n - 1])]
  {
    var n := |parts|;
    StripJoin(parts, sep);
    var qs := [TrimStart(parts[0])] + parts[1..n - 1] + [TrimEnd(parts[n - 1])];
    TrimStartIsSuffix(parts[0], sep);
    TrimEndIsPrefix(parts[n - 1], sep);
    forall k | 0 <= k < n
      ensures sep !in qs[k]
    {
      if 0 < k < n - 1 {
        assert qs[k] == parts[1..n - 1][k - 1];
      }
    }
    SplitJoin(qs, sep);
  }

  // ---------------------------------------------------------------------
  // splitlines()

  lemma LineEndOfLine(line: string, rest: string)
    requires NoLineBreak(line)
    ensures LineEnd(line + "\n" + rest) == |line|
    decreases |line|
  {
    if |line| > 0 {
      assert (line + "\n" + rest)[1..] == line[1..] + "\n" + rest;
      LineEndOfLine(line[1..], rest);
    }
  }

  /** Lines free of line breaks, each printed with "\n", split back into
      the same lines. */
  lemma {:induction false} SplitLinesJoinLines(lines: seq<string>)
    requires forall k :: 0 <= k < |lines| ==> NoLineBreak(lines[k])
    ensures SplitLines(JoinLines(lines)) == lines
    decreases |lines|
  {
    if |lines| > 0 {
      var rest := JoinLines(lines[1..]);
      var s := JoinLines(lines);
      assert s == lines[0] + "\n" + rest;
      LineEndOfLine(lines[0], rest);
      var i := |lines[0]|;
      assert s[i] == '\n';
      assert s[..i] == lines[0];
      assert s[i + 1..] == rest;
      SplitLinesJoinLines(lines[1..]);
      assert [lines[0]] + lines[1..] == lines;
    }
  }

  /** What `splitlines()` cuts away after a line: one line-break
      character, or "\r\n" taken together. */
  predicate LineTerminator(t: string) {
    (|t| == 1 && IsLineBreak(t[0])) || t == "\r\n"
  }

  /** Each line followed by its terminator, in order. */
  function Terminate(lines: seq<string>, ends: seq<string>): string
    requires |lines| == |ends|
    decreases |lines|
  {
    if |lines| == 0 then "" else lines[0] + ends[0] + Terminate(lines[1..], ends[1..])
  }

  /** Lines with their terminators as `splitlines()` cuts them: every
      line but the last ends in a terminator; the last ends in one, or
      in nothing when it is not empty; and a lone "\r" is never followed
      by "\n", which would have joined it. */
  predicate WellEnded(lines: seq<string>, ends: seq<string>)
    requires |lines| == |ends|
  {
    && (forall k :: 0 <= k < |ends| - 1 ==> LineTerminator(ends[k]))
    && (|ends| > 0 ==> LineTerminator(ends[|ends| - 1]) || (ends[|ends| - 1] == "" && lines[|ends| - 1] != ""))
    && (forall k :: 0 <= k < |ends| - 1 && ends[k] == "\r" && lines[k + 1] == "" ==> ends[k + 1] != "\n")
  }

  lemma WellEndedCons(line: string, e: string, lines: seq<string>, ends: seq<string>)
    requires |lines| == |ends| && WellEnded(lines, ends) && LineTerminator(e)
    requires e == "\r" ==> Terminate(lines, ends) == [] || Terminate(lines, ends)[0] != '\n'
    ensures WellEnded([line] + lines, [e] + ends)
    ensures Terminate([line] + lines, [e] + ends) == line + e + Terminate(lines, ends)
  {
    var ls := [line] + lines;
    var es := [e] + ends;
    assert ls[1..] == lines && es[1..] == ends;
    if |lines| > 0 && lines[0] == "" && ends[0] == "\n" {
      assert Terminate(lines, ends) == lines[0] + ends[0] + Terminate(lines[1..], ends[1..]);
    }
    forall k | 0 < k < |es| - 1
      ensures LineTerminator(es[k])
    {
      assert es[k] == ends[k - 1];
    }
    forall k | 0 < k < |es| - 1 && es[k] == "\r" && ls[k + 1] == ""
      ensures es[k + 1] != "\n"
    {
      assert es[k] == ends[k - 1] && es[k + 1] == ends[k] && ls[k + 1] == lines[k];
    }
  }

  /** One step of `splitlines()`: the first line, then its terminator,
      then the rest of the text. */
  lemma SplitLinesStep(s: string) returns (next: nat)
    requires LineEnd(s) < |s|
    ensures LineEnd(s) < next <= |s|
    ensures SplitLines(s) == [s[..LineEnd(s)]] + SplitLines(s[next..])
    ensures LineTerminator(s[LineEnd(s)..next])
    ensures s == s[..LineEnd(s)] + s[LineEnd(s)..next] + s[next..]
    ensures s[LineEnd(s)..next] == "\r" ==> next == |s| || s[next] != '\n'
  {
    var i := LineEnd(s);
    next := if s[i] == '\r' && i + 1 < |s| && s[i + 1] == '\n' then i + 2 else i + 1;
    if next == i + 2 {
      assert s[i..next] == "\r\n";
    } else {
      assert s[i..next] == [s[i]];
    }
    assert s == s[..i] + s[i..next] + s[next..];
  }

  /** The lines of `splitlines()` cover the whole text: the text is the
      lines, each followed by its terminator, cut as `WellEnded` says. So
      no text is dropped, an unterminated last line included. */
  lemma {:induction false} SplitLinesCover(s: string) returns (ends: seq<string>)
    ensures |ends| == |SplitLines(s)|
    ensures Terminate(SplitLines(s), ends) == s
    ensures WellEnded(SplitLines(s), ends)
    decreases |s|
  {
    if |s| == 0 {
      ends := [];
    } else if LineEnd(s) == |s| {
      ends := [""];
      assert SplitLines(s) == [s];
      assert Terminate([s], [""]) == s + "" + Terminate([], []);
    } else {
      var i := LineEnd(s);
      var next := SplitLinesStep(s);
      var rest := SplitLinesCover(s[next..]);
      WellEndedCons(s[..i], s[i..next], SplitLines(s[next..]), rest);
      ends := [s[i..next]] + rest;
    }
  }
}

=== FILE: results.dfy ===
/** Failure-compatible result values and the driver's error taxonomy.

    The driver signals every failure with a Python exception; the model
    returns one of these values instead, so that the control loop can
    inspect them at the point where the source catches them.
 */
module Results {

  /** The exceptions the core can raise, one constructor per cause. */
  datatype Error =
    /** `line.split('|')` did not unpack into exactly ten names. */
    | BadFieldCount(got: nat)
    /** `float(value)` rejected the sensor value text. */
    | BadValue(text: string)
    /** `next(...)` found no record with the requested name. */
    | SensorNotFound(name: string)
    /** Neither the call site nor the module default supplied a host. */
    | MissingHost
    /** Neither the call site nor the module default supplied a user name. */
    | MissingUsername
    /** Neither the call site nor the module default supplied a password. */
    | MissingPassword
    /** The fan index is outside `range(2, 7)`. */
    | FanOutOfRange(fan: int)
    /** The duty cycle is outside `range(0, 100)`. */
    | PercentOutOfRange(percent: int)
    /** `ipmitool` exited with an error or timed out. */
    | ChannelFailure

  datatype Option<+T> = None | Some(value: T)

  datatype Result<+T> = Ok(value: T) | Err(error: Error) {

    predicate IsFailure() {
      Err?
    }

    function PropagateFailure<U>(): Result<U>
      requires Err?
    {
      Err(error)
    }

    function Extract(): T
      requires Ok?
    {
      value
    }
  }
}

=== FILE: scenarios.dfy ===
/** Worked examples of one iteration of the driver, over any report that
    prints the given records and any credentials that resolve.
 */
module Scenarios {
  import opened Results
  import opened PyStr
  import opened Decimal
  import opened SensorReport
  import opened Ipmi
  import opened FanDriver

  /** The settings the examples use: the default ceiling and threshold. */
  predicate Defaults(cfg: Config) {
    cfg.maxPercent == DefaultMaxPercent && cfg.threshold == DefaultThreshold
    && Resolve(Unset, cfg.credentials).Ok?
  }

  /** A report printed from `events` whose first `CPU_Diode_Temp` record
      holds `value`. */
  predicate Reports(ch: Channel, events: seq<SensorEvent>, value: string) {
    && ch.report == Some(RenderReport(events))
    && (forall k :: 0 <= k < |events| ==> Printable(events[k]))
    && Lookup(events, TargetSensor).Ok?
    && Lookup(events, TargetSensor).value.value == value
  }

  /** A CPU reading of "70.000" at the default duty: one step up, to 15,
      broadcast to the fans. */
  lemma HotReadingStepsUp(cfg: Config, ch: Channel, events: seq<SensorEvent>)
    requires Defaults(cfg) && Reports(ch, events, "70.000")
    ensures Observe(cfg, ch) == Ok(70)
    ensures Iterate(cfg, DefaultFanPercent, ch).percent == 15
  {
    assert ShowInt(70) == "70";
    assert "70.000" == ShowInt(70) + "." + "000";
    ObserveRendered(cfg, events, 70, "000", ch.replies);
  }

  /** A CPU reading of "60" at duty 35: straight back to 10, with no fan
      command. */
  lemma ColdReadingResets(cfg: Config, ch: Channel, events: seq<SensorEvent>, login: Login)
    requires Defaults(cfg) && Reports(ch, events, "60")
    requires Resolve(Unset, cfg.credentials) == Ok(login)
    ensures Observe(cfg, ch) == Ok(60)
    ensures Iterate(cfg, 35, ch) == Step(DefaultFanPercent, [ReadSensors(login)], Ok(()))
  {
    assert ShowInt(60) == "60";
    ObserveRendered(cfg, events, 60, "", ch.replies);
    ResetIteration(cfg, 35, ch, login);
  }

  /** A cold iteration above the default duty is the sensor read alone,
      with the duty back at the default. */
  lemma ResetIteration(cfg: Config, active: int, ch: Channel, login: Login)
    requires Resolve(Unset, cfg.credentials) == Ok(login)
    requires Cold(cfg, Observe(cfg, ch)) && active > DefaultFanPercent
    ensures Iterate(cfg, active, ch) == Step(DefaultFanPercent, [ReadSensors(login)], Ok(()))
  {
    var reading := Observe(cfg, ch);
    assert Decide(cfg, active, reading.value) == Reset;
    var r := Respond(cfg, active, reading, ch.replies);
    assert r.percent == DefaultFanPercent && r.sent == [] && r.result == Ok(());
    var fetch := FetchReport(Unset, cfg.credentials, ch.report);
    assert fetch.sent + r.sent == [ReadSensors(login)];
  }

  /** A report without a `CPU_Diode_Temp` record: the iteration ends in
      that error and the duty stays. */
  lemma MissingSensorKeepsDuty(cfg: Config, ch: Channel, active: int)
    requires ch.report.Some? && Resolve(Unset, cfg.credentials).Ok?
    requires ParseReport(ch.report.value).Ok?
    requires forall k :: 0 <= k < |ParseReport(ch.report.value).value|
               ==> ParseReport(ch.report.value).value[k].name != TargetSensor
    ensures var s := Iterate(cfg, active, ch);
            s.percent == active && s.result == Err(SensorNotFound(TargetSensor))
  {
  }

  /** A line with nine fields (eight delimiters) fails the whole report,
      and the duty stays. */
  lemma NineFieldsKeepsDuty(cfg: Config, ch: Channel, active: int, k: nat)
    requires ch.report.Some? && Resolve(Unset, cfg.credentials).Ok?
    requires k < |SplitLines(ch.report.value)|
    requires Count(SplitLines(ch.report.value)[k], Delimiter) == 8
    ensures ParseLine(SplitLines(ch.report.value)[k]) == Err(BadFieldCount(9))
    ensures var s := Iterate(cfg, active, ch);
            s.percent == active && s.result.Err?
  {
  }

  /** A hot reading whose broadcast is refused by fan 4 (the BMC
      acknowledges the first two commands, not the third): fans 2 and 3
      were set, fan 4 was tried, fans 5 and 6 never were, and the duty
      is the raised one all the same. */
  lemma RefusedByFanFour(cfg: Config, active: int, reading: Result<int>, replies: seq<bool>, login: Login)
    requires Resolve(Unset, cfg.credentials) == Ok(login)
    requires Hot(cfg, reading)
    requires |replies| >= 3 && replies[0] && replies[1] && !replies[2]
    requires 0 <= active < cfg.maxPercent && active + FanStep < PercentLimit
    ensures var target := Min(active + FanStep, cfg.maxPercent);
            Respond(cfg, active, reading, replies)
              == Step(target, [SetFan(login, 2, target), SetFan(login, 3, target), SetFan(login, 4, target)],
                      Err(ChannelFailure))
  {
    ThirdRefused(Min(active + FanStep, cfg.maxPercent), cfg.credentials, login, replies);
  }

  /** A broadcast whose third command is refused. */
  lemma ThirdRefused(percent: int, defaults: Credentials, login: Login, replies: seq<bool>)
    requires Resolve(Unset, defaults) == Ok(login)
    requires 0 <= percent < PercentLimit
    requires |replies| >= 3 && replies[0] && replies[1] && !replies[2]
    ensures Broadcast(percent, Unset, defaults, replies)
         == Trace([SetFan(login, 2, percent), SetFan(login, 3, percent), SetFan(login, 4, percent)],
                  Err(ChannelFailure))
  {
    var b := Broadcast(percent, Unset, defaults, replies);
    assert FirstRefusal(replies, FanLimit - FirstFan) == 2;
    assert FanCommand(FirstFan, percent, Unset, defaults).Ok?;
    assert |b.sent| == 3;
  }
}

=== FILE: sensor.dfy ===
/** The `ipmitool sensor` report: one record per line, ten fields
    separated by '|', each field padded with whitespace.
 */
module SensorReport {
  import opened Results
  import opened PyStr

  /** The character between the fields of a report line. */
  const Delimiter: char := '|'

  /** The number of fields every report line must have. */
  const FieldCount: nat := 10

  /** One report line, field by field, in the order the line gives them. */
  datatype SensorEvent = SensorEvent(
    name: string,
    value: string,
    unit: string,
    status: string,
    lowerNonRecoverable: string,
    lowerCritical: string,
    lowerNonCritical: string,
    upperNonCritical: string,
    upperCritical: string,
    upperNonRecoverable: string)
  {
    /** The fields in line order. */
    function Fields(): (fs: seq<string>)
      ensures |fs| == FieldCount
      ensures fs[0] == name && fs[1] == value && fs[2] == unit
    {
      [name, value, unit, status, lowerNonRecoverable, lowerCritical,
       lowerNonCritical, upperNonCritical, upperCritical, upperNonRecoverable]
    }
  }

  /** The record whose fields, in line order, are `fs`. */
  function FromFields(fs: seq<string>): (e: SensorEvent)
    requires |fs| == FieldCount
    ensures e.Fields() == fs
  {
    SensorEvent(fs[0], fs[1], fs[2], fs[3], fs[4], fs[5], fs[6], fs[7], fs[8], fs[9])
  }

  /** A record a report line can produce: every field has no whitespace
      at either end and no delimiter inside. */
  predicate WellFormed(e: SensorEvent) {
    forall k :: 0 <= k < FieldCount ==> Stripped(e.Fields()[k]) && Delimiter !in e.Fields()[k]
  }

  /** A record that can be printed on one line of a report. */
  predicate Printable(e: SensorEvent) {
    WellFormed(e) && forall k :: 0 <= k < FieldCount ==> NoLineBreak(e.Fields()[k])
  }

  /** Stripping every piece of a split gives fields a record can hold. */
  lemma StrippedPieces(pieces: seq<string>)
    requires forall k :: 0 <= k < |pieces| ==> Delimiter !in pieces[k]
    ensures forall k :: 0 <= k < |pieces| ==>
      Stripped(Strip(pieces[k])) && Delimiter !in Strip(pieces[k])
  {
    forall k | 0 <= k < |pieces|
      ensures Stripped(Strip(pieces[k])) && Delimiter !in Strip(pieces[k])
    {
      StripShape(pieces[k]);
      TrimStartIsSuffix(pieces[k], Delimiter);
      TrimEndIsPrefix(TrimStart(pieces[k]), Delimiter);
    }
  }

  /** One line of the report: strip it, split it at every '|', require
      exactly ten pieces and strip each of them. A line with another
      number of pieces, a blank one included, is the unpacking error. */
  function ParseLine(line: string): (r: Result<SensorEvent>)
    ensures r.Ok? <==> Count(line, Delimiter) == FieldCount - 1
    ensures r.Err? ==> r.error == BadFieldCount(Count(line, Delimiter) + 1)
    ensures r.Ok? ==> WellFormed(r.value)
  {
    var pieces := Split(Strip(line), Delimiter);
    StripKeepsCount(line, Delimiter);
    StrippedPieces(pieces);
    if |pieces| != FieldCount then
      Err(BadFieldCount(|pieces|))
    else
      Ok(FromFields(seq(FieldCount, k requires 0 <= k < FieldCount => Strip(pieces[k]))))
  }

  /** Index of the first line that does not parse, or the number of
      lines when they all do. */
  function FirstBadLine(lines: seq<string>): (k: nat)
    ensures k <= |lines|
    ensures forall j :: 0 <= j < k ==> ParseLine(lines[j]).Ok?
    ensures k < |lines| ==> ParseLine(lines[k]).Err?
  {
    if |lines| == 0 || Count(lines[0], Delimiter) != FieldCount - 1 then 0
    else
      var k := FirstBadLine(lines[1..]);
      assert forall j :: 1 <= j < |lines| ==> lines[j] == lines[1..][j - 1];
      1 + k
  }

  /** Every line of a report, in order; the first line that does not
      parse is the error of the whole report. */
  function ParseLines(lines: seq<string>): (r: Result<seq<SensorEvent>>)
    ensures r.Ok? <==> FirstBadLine(lines) == |lines|
    ensures r.Ok? ==> |r.value| == |lines|
    ensures r.Ok? ==> forall k :: 0 <= k < |lines| ==> ParseLine(lines[k]) == Ok(r.value[k])
    ensures r.Err? ==> r.error == ParseLine(lines[FirstBadLine(lines)]).error
  {
    if |lines| == 0 then Ok([])
    else
      var e :- ParseLine(lines[0]);
      var rest :- ParseLines(lines[1..]);
      assert forall k :: 1 <= k < |lines| ==> lines[k] == lines[1..][k - 1];
      Ok([e] + rest)
  }

  /** The line the lookup of `name` found: every line parsed, and line
      `i` is the first whose record carries that name. */
  lemma FirstNamedLine(lines: seq<string>, name: string) returns (i: nat)
    requires ParseLines(lines).Ok? && Lookup(ParseLines(lines).value, name).Ok?
    ensures forall k :: 0 <= k < |lines| ==> ParseLine(lines[k]).Ok?
    ensures i < |lines| && ParseLine(lines[i]) == Lookup(ParseLines(lines).value, name)
    ensures forall j :: 0 <= j < i ==> ParseLine(lines[j]).value.name != name
  {
    var events := ParseLines(lines).value;
    var found := Lookup(events, name).value;
    i :| 0 <= i < |events| && events[i] == found && forall j :: 0 <= j < i ==> events[j].name != name;
  }

  /** A whole report, split into lines at every line boundary. */
  function ParseReport(text: string): (r: Result<seq<SensorEvent>>)
    ensures r.Ok? ==> forall k :: 0 <= k < |r.value| ==> WellFormed(r.value[k])
  {
    ParseLines(SplitLines(text))
  }

  // ---------------------------------------------------------------------
  // Printing records back

  /** A list of ten whitespace strings, one per field. */
  predicate Padding(ws: seq<string>) {
    |ws| == FieldCount && forall k :: 0 <= k < FieldCount ==> AllSpace(ws[k])
  }

  /** The pieces of a line holding `e` with `lead[k]` before and
      `trail[k]` after its k-th field. */
  function Padded(e: SensorEvent, lead: seq<string>, trail: seq<string>): (ps: seq<string>)
    requires |lead| == FieldCount && |trail| == FieldCount
    ensures |ps| == FieldCount
  {
    seq(FieldCount, k requires 0 <= k < FieldCount => lead[k] + e.Fields()[k] + trail[k])
  }

  /** The line holding `e` with `lead[k]` before and `trail[k]` after its
      k-th field. */
  function Layout(e: SensorEvent, lead: seq<string>, trail: seq<string>): string
    requires |lead| == FieldCount && |trail| == FieldCount
  {
    Join(Padded(e, lead, trail), Delimiter)
  }

  /** The line holding `e` with no whitespace around any field. */
  function Render(e: SensorEvent): string {
    Join(e.Fields(), Delimiter)
  }

  /** No padding at all. */
  function NoPadding(): (ws: seq<string>)
    ensures Padding(ws)
  {
    seq(FieldCount, _ => "")
  }

  /** The padded pieces of a well-formed record hold no delimiter. */
  lemma PaddedPieces(e: SensorEvent, lead: seq<string>, trail: seq<string>)
    requires WellFormed(e) && Padding(lead) && Padding(trail)
    ensures forall k :: 0 <= k < FieldCount ==> Delimiter !in Padded(e, lead, trail)[k]
    ensures forall k :: 0 <= k < FieldCount ==> Strip(Padded(e, lead, trail)[k]) == e.Fields()[k]
  {
    forall k | 0 <= k < FieldCount
      ensures Delimiter !in Padded(e, lead, trail)[k]
      ensures Strip(Padded(e, lead, trail)[k]) == e.Fields()[k]
    {
      assert Delimiter !in lead[k] && Delimiter !in trail[k];
      StripPadded(lead[k], e.Fields()[k], trail[k]);
    }
  }

  /** Trimming the leading whitespace of the first piece and the
      trailing whitespace of the last leaves what every piece strips to. */
  lemma StripTrimmedEnds(ps: seq<string>, qs: seq<string>)
    requires |ps| >= 3
    requires qs == [TrimStart(ps[0])] + ps[1..|ps| - 1] + [TrimEnd(ps[|ps| - 1])]
    ensures |qs| == |ps|
    ensures forall k :: 0 <= k < |ps| ==> Strip(qs[k]) == Strip(ps[k])
  {
    var n := |ps|;
    forall k | 0 <= k < n
      ensures Strip(qs[k]) == Strip(ps[k])
    {
      if k == 0 {
        StripAfterTrimStart(ps[0]);
      } else if k == n - 1 {
        StripAfterTrimEnd(ps[n - 1]);
      } else {
        assert qs[k] == ps[1..n - 1][k - 1] == ps[k];
      }
    }
  }

  /** Stripping and splitting a line joined from delimiter-free pieces
      gives pieces that strip to the same text as the originals. */
  lemma StripSplitJoin(ps: seq<string>)
    requires |ps| >= 3
    requires forall k :: 0 <= k < |ps| ==> Delimiter !in ps[k]
    ensures var qs := Split(Strip(Join(ps, Delimiter)), Delimiter);
      && |qs| == |ps|
      && forall k :: 0 <= k < |ps| ==> Strip(qs[k]) == Strip(ps[k])
  {
    SplitStrippedJoin(ps, Delimiter);
    StripTrimmedEnds(ps, Split(Strip(Join(ps, Delimiter)), Delimiter));
  }

  /** Whitespace around the fields of a line does not change the record
      it parses to. */
  lemma ParseLayout(e: SensorEvent, lead: seq<string>, trail: seq<string>)
    requires WellFormed(e) && Padding(lead) && Padding(trail)
    ensures ParseLine(Layout(e, lead, trail)) == Ok(e)
  {
    var ps := Padded(e, lead, trail);
    PaddedPieces(e, lead, trail);
    StripSplitJoin(ps);
    var qs := Split(Strip(Join(ps, Delimiter)), Delimiter);
    var fs := seq(FieldCount, k requires 0 <= k < FieldCount => Strip(qs[k]));
    assert fs == e.Fields();
  }

  lemma RenderIsBare(e: SensorEvent)
    ensures Render(e) == Layout(e, NoPadding(), NoPadding())
  {
    var ws := NoPadding();
    forall k | 0 <= k < FieldCount
      ensures Padded(e, ws, ws)[k] == e.Fields()[k]
    {
      assert ws[k] + e.Fields()[k] + ws[k] == e.Fields()[k];
    }
    assert Padded(e, ws, ws) == e.Fields();
  }

  /** Printing a well-formed record and parsing the line gives it back. */
  lemma ParseRender(e: SensorEvent)
    requires WellFormed(e)
    ensures ParseLine(Render(e)) == Ok(e)
  {
    RenderIsBare(e);
    ParseLayout(e, NoPadding(), NoPadding());
  }

  /** The whitespace around each of `ps`, before and after what
      stripping it leaves. */
  lemma {:induction false} Unpad(ps: seq<string>) returns (ls: seq<string>, ts: seq<string>)
    ensures |ls| == |ps| && |ts| == |ps|
    ensures forall k :: 0 <= k < |ps| ==>
      && AllSpace(ls[k]) && AllSpace(ts[k])
      && ps[k] == ls[k] + Strip(ps[k]) + ts[k]
    decreases |ps|
  {
    if |ps| == 0 {
      return [], [];
    }
    var l, t := Frame(ps[0]);
    var ls', ts' := Unpad(ps[1..]);
    ls, ts := [l] + ls', [t] + ts';
    assert forall k :: 1 <= k < |ps| ==> ps[k] == ps[1..][k - 1];
  }

  /** The fields of a parsed line are its stripped pieces. */
  lemma ParsedFields(line: string)
    requires ParseLine(line).Ok?
    ensures var ps := Split(Strip(line), Delimiter);
      && |ps| == FieldCount
      && forall k :: 0 <= k < FieldCount ==> ParseLine(line).value.Fields()[k] == Strip(ps[k])
  {
  }

  /** Every line that parses is its record laid out with some whitespace
      around the fields. */
  lemma ParsedLayout(line: string)
    requires ParseLine(line).Ok?
    ensures var e := ParseLine(line).value;
      exists lead, trail :: Padding(lead) && Padding(trail) && line == Layout(e, lead, trail)
  {
    var lead, trail := LaidOut(line);
  }

  /** The whitespace around each field of a parsed line, with the text
      around the whole line added to the first and the last. */
  lemma LaidOut(line: string) returns (lead: seq<string>, trail: seq<string>)
    requires ParseLine(line).Ok?
    ensures Padding(lead) && Padding(trail) && line == Layout(ParseLine(line).value, lead, trail)
  {
    var e := ParseLine(line).value;
    var n := FieldCount;
    var s := Strip(line);
    var ps := Split(s, Delimiter);
    var front, back := Frame(line);
    JoinSplit(s, Delimiter);
    ParsedFields(line);
    var ls, ts := Unpad(ps);
    lead := ls[0 := front + ls[0]];
    trail := ts[n - 1 := ts[n - 1] + back];
    MovedPadding(ls, ts, front, back);
    Reassemble(e, ps, front, back, ls, ts);
  }

  /** Adding whitespace to the first lead and the last trail keeps them
      padding. */
  lemma MovedPadding(ls: seq<string>, ts: seq<string>, front: string, back: string)
    requires |ls| == FieldCount && |ts| == FieldCount
    requires forall k :: 0 <= k < FieldCount ==> AllSpace(ls[k]) && AllSpace(ts[k])
    requires AllSpace(front) && AllSpace(back)
    ensures Padding(ls[0 := front + ls[0]]) && Padding(ts[FieldCount - 1 := ts[FieldCount - 1] + back])
  {
    SpacesAppend(front, ls[0]);
    SpacesAppend(ts[FieldCount - 1], back);
  }

  /** Moving the text before and after a line into the first lead and
      the last trail lays out the whole line. */
  lemma Reassemble(e: SensorEvent, ps: seq<string>, front: string, back: string,
                   ls: seq<string>, ts: seq<string>)
    requires |ps| == FieldCount && |ls| == FieldCount && |ts| == FieldCount
    requires forall k :: 0 <= k < FieldCount ==> ps[k] == ls[k] + e.Fields()[k] + ts[k]
    ensures Layout(e, ls[0 := front + ls[0]], ts[FieldCount - 1 := ts[FieldCount - 1] + back])
         == front + Join(ps, Delimiter) + back
  {
    var n := FieldCount;
    PaddedFramed(e, ps, front, back, ls, ts);
    JoinFramed(ps, front, back, Delimiter);
  }

  lemma PaddedFramed(e: SensorEvent, ps: seq<string>, front: string, back: string,
                     ls: seq<string>, ts: seq<string>)
    requires |ps| == FieldCount && |ls| == FieldCount && |ts| == FieldCount
    requires forall k :: 0 <= k < FieldCount ==> ps[k] == ls[k] + e.Fields()[k] + ts[k]
    ensures var n := FieldCount;
      Padded(e, ls[0 := front + ls[0]], ts[n - 1 := ts[n - 1] + back])
        == [front + ps[0]] + ps[1..n - 1] + [ps[n - 1] + back]
  {
    var n := FieldCount;
    var qs := Padded(e, ls[0 := front + ls[0]], ts[n - 1 := ts[n - 1] + back]);
    assert qs[0] == (front + ls[0]) + e.Fields()[0] + ts[0];
    assert qs[0] == front + ps[0];
    assert qs[n - 1] == ls[n - 1] + e.Fields()[n - 1] + (ts[n - 1] + back);
    assert qs[n - 1] == ps[n - 1] + back;
    assert qs[1..n - 1] == ps[1..n - 1];
  }

  /** A line made only of whitespace, the blank line included, is
      rejected as a single piece. */
  lemma BlankLineRejected(line: string)
    requires AllSpace(line)
    ensures ParseLine(line) == Err(BadFieldCount(1))
  {
    CountSpaces(line, Delimiter);
  }

  /** A report with a blank line in it is rejected, whatever the other
      lines hold. */
  lemma BlankLineFailsReport(text: string, k: nat)
    requires k < |SplitLines(text)| && AllSpace(SplitLines(text)[k])
    ensures ParseReport(text).Err?
  {
    BlankLineRejected(SplitLines(text)[k]);
  }

  /** The report printing each record on its own line. */
  function RenderReport(events: seq<SensorEvent>): string {
    JoinLines(seq(|events|, k requires 0 <= k < |events| => Render(events[k])))
  }

  /** Printing records one per line and parsing the report gives them
      back, in order. */
  lemma ParseRenderReport(events: seq<SensorEvent>)
    requires forall k :: 0 <= k < |events| ==> Printable(events[k])
    ensures ParseReport(RenderReport(events)) == Ok(events)
  {
    var lines := seq(|events|, k requires 0 <= k < |events| => Render(events[k]));
    forall k | 0 <= k < |events|
      ensures NoLineBreak(lines[k]) && ParseLine(lines[k]) == Ok(events[k])
    {
      JoinNoLineBreak(events[k].Fields(), Delimiter);
      ParseRender(events[k]);
    }
    SplitLinesJoinLines(lines);
    var r := ParseLines(lines);
    assert r.Ok?;
    assert r.value == events;
  }

  // ---------------------------------------------------------------------
  // Finding a sensor

  /** Index of the first record named `name`, if any. */
  function FindFirst(events: seq<SensorEvent>, name: string): (r: Option<nat>)
    ensures r.Some? ==> r.value < |events| && events[r.value].name == name
    ensures r.Some? ==> forall j :: 0 <= j < r.value ==> events[j].name != name
    ensures r.None? ==> forall j :: 0 <= j < |events| ==> events[j].name != name
  {
    if |events| == 0 then None
    else if events[0].name == name then Some(0)
    else match FindFirst(events[1..], name)
      case None => None
      case Some(i) => Some(i + 1)
  }

  /** The first record named `name`; the error when no record is, as
      `next()` on an exhausted generator raises. */
  function Lookup(events: seq<SensorEvent>, name: string): (r: Result<SensorEvent>)
    ensures r.Ok? ==> r.value.name == name
    ensures r.Ok? ==> exists i :: (0 <= i < |events| && events[i] == r.value
                                   && forall j :: 0 <= j < i ==> events[j].name != name)
    ensures r.Err? ==> r.error == SensorNotFound(name)
    ensures r.Err? ==> forall j :: 0 <= j < |events| ==> events[j].name != name
  {
    match FindFirst(events, name)
    case None => Err(SensorNotFound(name))
    case Some(i) => Ok(events[i])
  }
}
